=== FILE: README.md ===
# YouTube content tools — a Dafny model

This project models the tools of a YouTube content-management MCP server, each as a pure
function. The seven tools are:

- `search_videos`, `search_playlists` and `search_channels`;
- `get_video_metrics`, `get_channel_metrics` and `get_playlist_metrics`;
- `fetch_transcripts`.

It also models the helpers the tools share:

- `validate_youtube_params` and its RFC 3339 timestamp pattern;
- the API-key check of `get_youtube_client`;
- the pydantic input models.

Each tool takes its arguments and the API endpoints it calls as parameters. It returns either
the list of text blocks the tool answers with, or the `YouTubeAPIError` it raises. An endpoint
is a function from request parameters to a reply:

- a response body;
- an `HttpError`;
- any other failure.

"Nothing is sent before X" is therefore stated as the tool's answer not depending on the endpoint.

Every record a tool prints (a video, playlist or channel, or a set of metrics) is built from one
layout, a `Card`: a bold title line followed by `Label: value` lines. The other texts are not
cards: the fixed one-line answers ("No videos found." and the like) and the transcript answer,
which is a header line and the joined transcript text (`Transcripts.Settle`). A parser reads a
card back. The round-trip lemmas
(`Cards.CardRoundTrip`, `Cards.ListingRoundTrip`) let each tool's lemmas state what the output
contains and in which order. They hold when the printed fields are single lines. For any field
contents, the `…Spelled` lemmas give each tool's text as the source's f-string, and the
`Answer` lemmas tie each tool's success path to that text.

Modules, one per source file where the source has one:

- `Wrappers` holds `Option` and `Result`.
- `Text` holds the Python `str` behaviour the tools rely on: `join`, `str(int)`, `repr`,
  `int(str)` and `strip`. It also holds `Split`, which no tool calls. It exists only so that the
  card parser can read the model's own output back.
- `Cards` holds the layout and its parser.
- `Timestamp` holds the `published_after` pattern.
- `Errors` holds the error messages.
- `Utils` models `utils.py`.
- `Reshape` holds the small reshaping rules shared by the tools: clamping, truncation and
  counter defaults.
- `Models` models `utils/models.py`.
- `YouTubeApi` holds the endpoints and resources.
- The remaining modules model one tool each.

## Model

| member | source | states |
|---|---|---|
| Utils.ValidateYouTubeParams | utils.py:13-23 | The check passes exactly when the order is one of the four orders, the duration is one of the four durations, and `published_after` is absent, empty or matches the pattern. The error names the first failing check: order, then duration, then timestamp. |
| Utils.GetYouTubeClient | utils.py:25-35 | A client exists exactly when the key is set and non-empty, and it carries that key. Otherwise the error is the fixed "key is not set" message. |
| Timestamp.Matches | utils.py:22 | Every string of the pattern's shape is accepted. An accepted string has 20 characters, or 21 ending in a newline, with the separators `-`, `-`, `T`, `:`, `:`, `Z` in place and digits in the year and seconds. AcceptedAreRenderings gives the exact set. |
| Timestamp.AcceptedAreRenderings | utils.py:22 | A 20-character string passes the pattern exactly when it spells six digit fields that render back to it. The check is pure syntax. |
| Timestamp.ParseRender | utils.py:22 | Any four-digit year and two-digit fields render into an accepted string that reads back as the same fields. |
| Timestamp.RenderParse | utils.py:22 | Every string of the accepted shape is the rendering of the fields it spells. |
| Timestamp.RenderFitsShape | utils.py:22 | A rendering has the accepted shape, each field padded into its own slot. |
| Timestamp.AcceptsOutOfRange | utils.py:22 | `9999-99-99T99:99:99Z` passes: no calendar or clock range is checked. |
| Timestamp.RejectsOtherRfc3339Forms | utils.py:22 | Valid RFC 3339 date-times with a numeric offset, fractional seconds or a lower-case `z` are refused. |
| Timestamp.AcceptsTrailingNewline | utils.py:22 | `re.match` with `$` accepts one trailing newline after a valid timestamp. |
| Models.ValidateSearchVideosInput | utils/models.py:5-33 | The model accepts exactly when all five field checks hold: query non-empty, max_results in 1..50, order allowed, duration medium or long, timestamp accepted. Defaults are 25, relevance and medium. On rejection, the reported fields are exactly the failing ones. |
| Models.SearchVideosErrors | utils/models.py:5-33 | No errors exactly when every field is valid; the fields reported are the union of the failing ones. |
| Models.ValidateSearchListInput | utils/models.py:35-57 | The channel and playlist search models accept exactly when the query, count and timestamp checks hold, with the same defaults. On rejection, the reported fields are exactly the failing ones. |
| SearchPlaylists.ListModelStricterThanHandlerCheck | utils/models.py:35-57 | Whatever the playlist search model accepts, the handler's own check accepts and sends with the same query and count. A query made empty is still sent by the handler but refused by the model. |
| Models.SearchListErrors | utils/models.py:35-57 | No errors exactly when query, count and timestamp are valid; the reported fields are the failing ones. |
| Models.RequiredTextErrors | utils/models.py:6 | A required string fails exactly when it is missing or empty, and then only its own field is reported. |
| Models.MaxResultsErrors | utils/models.py:7 | The count fails exactly when it is present and outside 1..50. |
| Models.MemberErrors | utils/models.py:12-26 | A value fails exactly when it is present and outside the allowed set. |
| Models.PublishedAfterErrors | utils/models.py:28-33 | The timestamp fails exactly when the shared pattern refuses it. |
| Models.ValidateIdInput | utils/models.py:59-66 | An id model accepts exactly a present, non-empty id and keeps it. Otherwise it reports that one field, as missing or too short. |
| Models.VideosModelStricterThanHandlerCheck | utils/models.py:5-33 | Whatever the video search model accepts, `validate_youtube_params` accepts once the handler's defaults are filled in, with the same clamped count. |
| Models.DurationSetsDisagree | utils/models.py:23 | The model allows medium and long only. The handler check also allows any and short, so "any" passes one check and fails the other. |
| Reshape.ClampMaxResults | tools/search_videos.py:36 | The count sent is at most 50. It equals the requested count (25 when absent) whenever that is at most 50. |
| Reshape.ClampIdempotent | tools/search_videos.py:36 | Clamping a clamped count changes nothing. |
| Reshape.ClampHasNoLowerBound | tools/search_videos.py:36 | Zero and negative counts are passed on unchanged; an absent count means 25. |
| Reshape.TruncateDescription | tools/search_videos.py:62 | An empty description stays empty. Any other ends in `...`, has length min(n, 200) + 3, and what precedes the `...` is a prefix of the original. |
| Reshape.ShortDescriptionStillGetsEllipsis | tools/search_videos.py:62 | A description of at most 200 characters gets `...` appended even though nothing was cut. |
| Reshape.UntruncateTruncate | tools/search_videos.py:62 | Dropping the marker recovers a description of at most 200 characters, or the first 200 characters of a longer one. |
| Errors.Wrap | tools/search_videos.py:83-86 | An `HttpError` becomes a "YouTube API error for" message and anything else an "Unexpected error for" message. Both name the subject and end with the exception's text. |
| Errors.InvalidInput | tools/get_video_metrics.py:28-31 | A rejected input model raises "Invalid input arguments: " followed by the validation message. |
| Text.SplitJoin | tools/search_playlists.py:70-76 | Lines joined with newlines split back into the same lines when none contains a newline. |
| Text.JoinAppend | tools/search_channels.py:57-62 | Joining two non-empty runs of blocks puts exactly one separator between them. |
| Text.ParseNatToString | tools/search_playlists.py:70 | A printed count reads back as the same number. |
| Text.ParseDecimal | tools/get_playlist_metrics.py:63 | A literal has a value exactly when it is a non-empty ASCII digit string. The digit cap of `int()` is applied on top of it by PlaylistMetrics.ViewCount. |
| Text.NatToStringSpelled | tools/get_playlist_metrics.py:63 | The digit cap is 4300, and one past it is printed as `4301`. |
| Text.Precision | tools/get_playlist_metrics.py:63 | The `%.200R` precision of the `int()` message keeps the first characters of the repr, all of it when it is short enough. |
| Errors.Describe | utils.py:19-23 | `str(e)` of each cause: each of the three validation messages starts with its fixed lead and the rejected value, a "required" error and an API or other failure pass their text through, the `int()` message starts with the fixed prefix and shows the literal's repr exactly when the repr fits in 200 characters, and both digit-cap messages start with CPython's "Exceeds the limit (4300 digits)" text. |
| Errors.CapErrorAdvises | tools/get_playlist_metrics.py:75-76 | A digit-cap error caught by a handler becomes an unexpected error naming the subject, and its message still ends with CPython's advice to raise the limit. |
| Errors.LongLiteralCut | tools/get_playlist_metrics.py:63 | A plain literal of 199 or more characters is shown as its opening quote and its first 199 characters, with no closing quote. |
| Errors.DigitLimitSpelled | tools/get_playlist_metrics.py:63 | The message for a 4301-digit literal is CPython's "Exceeds the limit (4300 digits) for integer string conversion: value has 4301 digits; use sys.set_int_max_str_digits() to increase the limit". |
| Text.ReprQuote | tools/get_playlist_metrics.py:63 | The `int()` error shows the literal in double quotes exactly when it holds a single quote and no double quote, otherwise in single quotes. |
| Text.EscapeChar | tools/get_playlist_metrics.py:63 | Inside the quotes a character stands for itself unless it is a backslash, the chosen quote, a newline, a carriage return or a tab; those take a two-character backslash escape. |
| Text.UnescapeEscape | tools/get_playlist_metrics.py:63 | Reading the escaped text back gives the original literal, whichever quote was chosen. |
| Text.ReprReadsBack | tools/get_playlist_metrics.py:63 | The text between the quotes of the shown literal reads back as the literal itself. |
| Text.ReprPlain | tools/get_playlist_metrics.py:63 | A literal without quotes, backslashes or control characters is shown as itself between single quotes. |
| Text.ReprExamples | tools/get_playlist_metrics.py:63 | `1'2` is shown as `"1'2"`, and a backslash in a literal is shown doubled. |
| Text.StripEmptyIffAllSpace | tools/fetch_transcripts.py:72 | `not text.strip()` holds exactly for texts made only of Python whitespace, the empty text included. |
| Text.ConcatAppend | tools/fetch_transcripts.py:70 | `"".join` of a concatenation is the concatenation of the two joins. |
| Cards.CardRoundTrip | tools/search_videos.py:74-78 | A bold title line and labelled lines, built from single-line fields, read back as the same title and values in the same order. |
| Cards.ListingRoundTrip | tools/search_channels.py:57-62 | When every title, label and value is a single line, a "Found N noun:" header, a blank line and the blocks separated by blank lines read back as the same cards, in order, with N equal to their number. |
| Cards.SpellThree | tools/get_video_metrics.py:55-58 | For any field contents, a record with three fields is `**title**` followed by one `label value` line per field, joined by newlines. |
| Cards.SpellFour | tools/search_videos.py:74-78 | For any field contents, a record with four fields is `**title**` followed by one `label value` line per field, joined by newlines. |
| Cards.JoinBlocks | tools/search_channels.py:58 | Joining block texts with blank lines is the same as stacking their lines with an empty line between blocks. |
| SearchVideos.SearchParams | tools/search_videos.py:35-55 | After validation, the request holds exactly part, q, type=video, maxResults and order, plus videoDuration unless the duration is "any" and publishedAfter when one is given. Each value is the one the arguments determine. Invalid arguments give the validation error. |
| SearchVideos.FormatVideos | tools/search_videos.py:59-81 | One text per result, or the fixed not-found text when there are none. |
| SearchVideos.SearchVideosTool | tools/search_videos.py:32-86 | Without a key the answer is the key error. With one, the tool answers exactly when the arguments pass and the search succeeds, with at least one text. Every other error names the query after the API-error or unexpected-error prefix. |
| SearchVideos.MissingKeyFirst | tools/search_videos.py:32 | Without an API key the answer is the missing-key error, unwrapped, whatever the arguments. |
| SearchVideos.InvalidArgumentsNeverSent | tools/search_videos.py:42-57 | Arguments failing the check are rejected without using the endpoint, as an unexpected error naming the query. |
| SearchVideos.DefaultDurationFilters | tools/search_videos.py:38-53 | Without a duration argument the request filters to medium-length videos. |
| SearchVideos.HttpErrorsWrapped | tools/search_videos.py:83-84 | An `HttpError` from the endpoint becomes a YouTube API error naming the query. |
| SearchVideos.NoResultsMessage | tools/search_videos.py:81 | An empty or missing item list gives exactly "No videos found.". |
| SearchVideos.BlocksReadBack | tools/search_videos.py:59-79 | When the results' fields are single lines, block i reads back as result i's title, channel, video id, date and truncated description. |
| SearchVideos.CardReadsBack | tools/search_videos.py:61-78 | When its fields are single lines, one result's block reads back as its title, channel, id, date and truncated description. |
| SearchVideos.Answer | tools/search_videos.py:32-81 | With a key, valid arguments and a response, the answer is the formatted list of that response's items. |
| SearchVideos.BlocksSpelled | tools/search_videos.py:59-79 | For any field contents, block i is `**title**\nChannel: …\nVideo ID: …\nPublished: …\nDescription: …` of result i, with the truncated description. |
| SearchVideos.BlockSpelled | tools/search_videos.py:74-78 | One result's block is the handler's five-line f-string, whatever its fields hold. |
| SearchVideos.ThumbnailsNotShown | tools/search_videos.py:69-78 | The thumbnail URL is computed but never reaches the output: results differing only in thumbnails print the same. |
| SearchPlaylists.SearchParams | tools/search_playlists.py:34-50 | A malformed non-empty timestamp is refused. Otherwise the request holds exactly part, q, type=playlist and maxResults, plus publishedAfter when one is given. |
| SearchPlaylists.FormatPlaylists | tools/search_playlists.py:54-77 | A single text: the not-found text when there are no results, otherwise the listing. |
| SearchPlaylists.PlaylistCards | tools/search_playlists.py:55-63 | One card per result, in response order. |
| SearchPlaylists.SearchPlaylistsTool | tools/search_playlists.py:31-82 | Without a key the answer is the key error. With one, the tool answers exactly when the arguments pass and the search succeeds, always with one text. Every other error names the query after the API-error or unexpected-error prefix. |
| SearchPlaylists.MissingKeyFirst | tools/search_playlists.py:31 | Without an API key the answer is the missing-key error. |
| SearchPlaylists.MalformedTimestampNeverSent | tools/search_playlists.py:39-40 | A malformed timestamp is rejected without using the endpoint, as an unexpected error naming the query. |
| SearchPlaylists.NoResultsMessage | tools/search_playlists.py:65-66 | No results give exactly "No playlists found.". |
| SearchPlaylists.Answer | tools/search_playlists.py:31-77 | With a key, an accepted timestamp and a response, the answer is the formatted listing of that response's items. |
| SearchPlaylists.ListingSpelled | tools/search_playlists.py:68-77 | For any field contents, the single text is `Found n playlists:` with n the number of results, a blank line, then the results' f-string blocks joined by blank lines, in response order. |
| SearchPlaylists.BlocksSpelled | tools/search_playlists.py:71-76 | For any field contents, the rendered blocks are the comprehension of the handler's f-string over the results. |
| SearchPlaylists.HeaderSpelled | tools/search_playlists.py:70 | The header and blank line are `Found {n} playlists:\n\n`. |
| SearchPlaylists.BlockSpelled | tools/search_playlists.py:71-75 | One result's block is the handler's five-line f-string, whatever its fields hold. |
| SearchPlaylists.ListingReadsBack | tools/search_playlists.py:68-76 | When the results' fields are single lines, the listing reads back as one card per result, each holding the playlist id, channel, date and truncated description. The header count equals the number of results. |
| SearchPlaylists.CardFits | tools/search_playlists.py:56-62 | A result with single-line fields gives a card that fits the playlist layout. |
| SearchChannels.SearchParams | tools/search_channels.py:32-40 | The request holds exactly part, q, type=channel and the clamped maxResults; nothing is validated. |
| SearchChannels.FormatChannels | tools/search_channels.py:42-63 | A single text: the not-found text when there are no results, otherwise the listing. |
| SearchChannels.ChannelCards | tools/search_channels.py:43-50 | One card per result, in response order. |
| SearchChannels.SearchChannelsTool | tools/search_channels.py:29-68 | Without a key the answer is the key error. With one, the tool answers exactly when the search succeeds, always with one text. Every other error names the query after the API-error or unexpected-error prefix. |
| SearchChannels.MissingKeyFirst | tools/search_channels.py:29 | Without an API key the answer is the missing-key error. |
| SearchChannels.OnlyQueryAndCountSent | tools/search_channels.py:32-40 | Only the query and count reach the request: order, duration and published_after are ignored. |
| SearchChannels.NoResultsMessage | tools/search_channels.py:52-53 | No results give exactly "No channels found.". |
| SearchChannels.FailuresWrapped | tools/search_channels.py:65-68 | `HttpError` and other endpoint failures are wrapped with the query under the matching prefix. |
| SearchChannels.Answer | tools/search_channels.py:29-63 | With a key and a response, the answer is the formatted listing of that response's items. |
| SearchChannels.ListingSpelled | tools/search_channels.py:55-63 | For any field contents, the single text is `Found n channels:` with n the number of results, a blank line, then the results' f-string blocks joined by blank lines, in response order. |
| SearchChannels.BlocksSpelled | tools/search_channels.py:58-62 | For any field contents, the rendered blocks are the comprehension of the handler's f-string over the results. |
| SearchChannels.HeaderSpelled | tools/search_channels.py:57 | The header and blank line are `Found {n} channels:\n\n`. |
| SearchChannels.BlockSpelled | tools/search_channels.py:58-61 | One result's block is the handler's four-line f-string, whatever its fields hold. |
| SearchChannels.ListingReadsBack | tools/search_channels.py:55-62 | When the results' fields are single lines, the listing reads back as one card per result, each holding the channel id, date and truncated description. The header count equals the number of results. |
| SearchChannels.CardFits | tools/search_channels.py:44-49 | A result with single-line fields gives a card that fits the channel layout. |
| VideoMetrics.FormatVideoMetrics | tools/get_video_metrics.py:41-59 | Exactly one text block answers. |
| VideoMetrics.VideoMetricsTool | tools/get_video_metrics.py:28-64 | A missing or empty id is the invalid-input error. A valid id without a key is the key error. The tool answers exactly when the id is valid, the key is set and the lookup succeeds, always with one text. Every other error names the video id. |
| VideoMetrics.InputCheckedBeforeClient | tools/get_video_metrics.py:28-33 | A missing or empty video id is an invalid-input error before the key is checked or the endpoint used. |
| VideoMetrics.MissingKeyAfterInput | tools/get_video_metrics.py:33 | With a valid id and no key the answer is the missing-key error. |
| VideoMetrics.NotFoundMessage | tools/get_video_metrics.py:41-43 | No items give exactly "No video found for the given ID.". |
| VideoMetrics.OnlyFirstItemUsed | tools/get_video_metrics.py:45-59 | Only the first item of the response matters. |
| VideoMetrics.Answer | tools/get_video_metrics.py:28-59 | With a non-empty id, a key and a response, the answer is the formatted items of that response. |
| VideoMetrics.BlockSpelled | tools/get_video_metrics.py:45-59 | For any field contents, the answer is `**title**\nViews: …\nLikes: …\nComments: …` for the first item, an absent counter printed as 0. |
| VideoMetrics.BlockReadsBack | tools/get_video_metrics.py:45-59 | When the title and counters are single lines, the block has four lines, which read back as the title and the view, like and comment counts. An absent counter shows as 0. |
| ChannelMetrics.FormatChannelMetrics | tools/get_channel_metrics.py:39-57 | Exactly one text block answers. |
| ChannelMetrics.ChannelMetricsTool | tools/get_channel_metrics.py:27-62 | Without a key the answer is the key error. With one, the tool answers exactly when the id is non-empty and the lookup succeeds, always with one text. Every other error names the channel id. |
| ChannelMetrics.MissingKeyFirst | tools/get_channel_metrics.py:27 | Without an API key the answer is the missing-key error, whatever the id. |
| ChannelMetrics.EmptyIdRewrapped | tools/get_channel_metrics.py:30-32 | A missing or empty id raises "Channel ID is required". The handler's catch-all turns it into "Unexpected error for channel ID '': Channel ID is required". |
| ChannelMetrics.NotFoundMessage | tools/get_channel_metrics.py:39-41 | No items give exactly "No channel found for the given ID.". |
| ChannelMetrics.OnlyFirstItemUsed | tools/get_channel_metrics.py:43-57 | Only the first item of the response matters. |
| ChannelMetrics.Answer | tools/get_channel_metrics.py:27-57 | With a key, a non-empty id and a response, the answer is the formatted items of that response. |
| ChannelMetrics.BlockSpelled | tools/get_channel_metrics.py:43-57 | For any field contents, the answer is `**title**\nSubscribers: …\nTotal Views: …\nVideos: …` for the first item, an absent counter printed as 0. |
| ChannelMetrics.BlockReadsBack | tools/get_channel_metrics.py:43-57 | When the title and counters are single lines, the block has four lines, which read back as the title and the subscriber, view and video counts. An absent counter shows as 0. |
| PlaylistMetrics.ViewCount | tools/get_playlist_metrics.py:63 | An absent view count counts as 0. A present one is read exactly when it is a digit string of at most 4300 digits, and without a leading zero it prints back as itself. Any other literal is the invalid-literal error, and a digit string past the cap is the digit-cap error naming its length. |
| PlaylistMetrics.TotalPastDigitCap | tools/get_playlist_metrics.py:65-76 | A total with more than 4300 digits cannot be printed: the handler answers with an unexpected error naming the playlist and ending with CPython's digit-cap advice. |
| PlaylistMetrics.CanonicalDigits | tools/get_playlist_metrics.py:63 | A digit string without a leading zero is the printed form of its value. |
| PlaylistMetrics.TotalViewsIsSum | tools/get_playlist_metrics.py:63 | When every count reads as a number (0 when absent), the total is their sum. |
| PlaylistMetrics.TotalViewsFailsAtFirstBadCount | tools/get_playlist_metrics.py:63 | The sum fails at the first unreadable count, with that count's `int()` error. |
| PlaylistMetrics.PlaylistMetricsTool | tools/get_playlist_metrics.py:27-76 | Without a key the answer is the key error. Any answer is one text. With a key, every error names the playlist id after the API-error or unexpected-error prefix. |
| PlaylistMetrics.MissingKeyFirst | tools/get_playlist_metrics.py:27 | Without an API key the answer is the missing-key error. |
| PlaylistMetrics.EmptyIdRewrapped | tools/get_playlist_metrics.py:30-32 | A missing or empty id gives "Unexpected error for playlist ID '': Playlist ID is required". |
| PlaylistMetrics.NotFoundMessage | tools/get_playlist_metrics.py:40-42 | An unknown playlist gives the fixed not-found text, whatever the item and video endpoints do. |
| PlaylistMetrics.EmptyPlaylistSkipsVideos | tools/get_playlist_metrics.py:53-63 | A playlist without items reports 0 items and 0 views without using the videos endpoint. |
| PlaylistMetrics.CountsAreItemsAndSum | tools/get_playlist_metrics.py:47-63 | One page of at most 50 items is asked for. The item count is the number of items returned, and the total is the sum of the returned videos' counts. |
| PlaylistMetrics.Answer | tools/get_playlist_metrics.py:27-71 | With a key, a non-empty id, a known playlist with items and video counts that all read and whose sum and item count have at most 4300 digits, the answer is one block: the first playlist's title, the id, the number of items and the sum of the counts. |
| PlaylistMetrics.EmptyPlaylistAnswer | tools/get_playlist_metrics.py:53-71 | A known playlist without items is answered with its title, the id, 0 items and 0 views. |
| PlaylistMetrics.AnswerFromTotal | tools/get_playlist_metrics.py:44-71 | When the returned videos' counts sum to a total of at most 4300 digits, the answer shows the number of items and that total. |
| PlaylistMetrics.BlockSpelled | tools/get_playlist_metrics.py:65-71 | For any title and id, the block is `**title**\nPlaylist ID: …\nItems: …\nTotal Views: …` with both numbers printed in decimal. |
| PlaylistMetrics.BlockReadsBack | tools/get_playlist_metrics.py:65-71 | When the title and id are single lines, the block has four lines, which read back as the title, the id, the item count and the total views. |
| PlaylistMetrics.TitleFromFirstPlaylist | tools/get_playlist_metrics.py:44 | The title comes from the first playlist returned; later ones are ignored. |
| Transcripts.TryFetch | tools/fetch_transcripts.py:58-68 | The inner tries never pass "not found" on. The default-language fetch is used exactly when the requested language found nothing. Both failing gives the any-language answer. |
| Transcripts.FetchTranscripts | tools/fetch_transcripts.py:49-85 | Rejected arguments raise the invalid-input error; every answer is a single text. |
| Transcripts.InvalidInputNeverFetched | tools/fetch_transcripts.py:49-52 | Rejected arguments never reach the transcript library. |
| Transcripts.FallbackOnlyAfterNotFound | tools/fetch_transcripts.py:58-66 | When the first fetch finds something or fails otherwise, the second fetch is not consulted. |
| Transcripts.FallbackReportedAsRequested | tools/fetch_transcripts.py:63-78 | A transcript found by the fallback is reported exactly like one found in the requested language: the heading names the requested code. |
| Transcripts.NothingInAnyLanguage | tools/fetch_transcripts.py:67-68 | Neither fetch finding a transcript gives "No transcript available for this video in any language.". |
| Transcripts.DisabledIsAnAnswer | tools/fetch_transcripts.py:80-81 | Disabled transcripts, reported by either fetch, give the fixed disabled text, not an error. |
| Transcripts.FailuresWrapped | tools/fetch_transcripts.py:84-85 | Any other failure of either fetch is an unexpected error naming the video id. |
| Transcripts.OuterNotFoundUnreachable | tools/fetch_transcripts.py:82-83 | The outer "not found" answer is never produced. |
| Transcripts.FetchedTranscriptReported | tools/fetch_transcripts.py:70-78 | A fetched transcript is reported as blank exactly when its text is all whitespace. Otherwise the answer is the heading followed by the whole text, which reads back unchanged. |
| Transcripts.HeadedMessageDistinct | tools/fetch_transcripts.py:73-78 | A transcript answer never coincides with the blank or the outer not-found text. |
| Transcripts.TimingsIgnored | tools/fetch_transcripts.py:70 | Snippet start times and durations play no part: the same texts give the same answer. |
| Transcripts.TranscriptTextAppend | tools/fetch_transcripts.py:70 | The snippet texts are concatenated in order with nothing between them. |

## Left out

- The MCP server, the tool registration and `TextContent` wrapping are left out. A tool's answer
  is the list of its texts.
- The network is left out. Each endpoint is a parameter, and the model does not check that
  replies are well-formed. Fields the source reads with `[...]` are always present, so there is
  no `KeyError` path. Only the `.get(..., default)` lookups are modelled as optional.
- Argument dictionaries are typed records. An absent key is `None`; explicit JSON `null` and
  values of the wrong type are left out. That includes a non-integer `max_results`, on which
  `min` would raise `TypeError`.
- `get_youtube_client` is reduced to the key check on a given environment. Reading the
  environment, `.env` loading, building the client and caching it are I/O.
- `utils/tool_utils.py` is not part of this model. `fetch_transcripts` imports
  `YouTubeAPIError` from it (tools/fetch_transcripts.py:4), and `get_video_metrics` imports
  both `YouTubeAPIError` and `get_youtube_client` from it (tools/get_video_metrics.py:4). Both
  are taken to behave like the `utils.py` versions. The other five tools import from `utils`
  (tools/search_videos.py:4, tools/search_playlists.py:4, tools/search_channels.py:4,
  tools/get_channel_metrics.py:4, tools/get_playlist_metrics.py:4).
- `FetchTranscriptsInput` is not part of this model because its definition is missing. Its
  outcome is a parameter of `Transcripts.FetchTranscripts`. That covers its video-id or URL
  handling, the 'en' default and its error message.
- The transcript library's own default languages are opaque: `LibraryDefault` is just a
  distinct argument. Snippet timings are kept only to show they are unused.
- Models.ErrorsText: pydantic's exact `ValidationError` wording is not reproduced. The
  model keeps which fields failed and why, joined in a readable form.
- Errors.Describe: Python prints the allowed orders and durations in set-iteration order.
  The text here uses the source's listing order. The literal in the `int()` error is shown with
  `repr`'s choice of quotes and its escapes for backslash, the quote, `\n`, `\r` and `\t`
  (Text.Repr). The `\x..`, `\u....` and `\U........` escapes `repr` uses for the other
  non-printable characters are left out; such characters are shown as themselves.
- PlaylistMetrics.ViewCount: `int()` also accepts surrounding whitespace, a sign, underscores
  between digits and non-ASCII digits. Here only plain ASCII digit strings are read. Any other
  literal is the `int()` error. The digit cap is CPython's default from 3.11 on (also 3.10.7
  and later 3.10 releases). Older interpreters have no cap, and `sys.set_int_max_str_digits`
  can change it; neither is modelled.
- Text.ParseDecimal: reads digit strings of any length. The digit cap is applied where `int()`
  is called (PlaylistMetrics.ViewCount), because the card parser also uses ParseDecimal to
  read the model's own output back.
- Timestamp.Matches: Python's `\d` also matches non-ASCII decimal digits. Here it matches
  `0`-`9` only.
- The search tools do not bound the number of items themselves. The at-most-50 bound comes
  from the API, and the tools take whatever list comes back.
- Later pages of `playlistItems` are never fetched by the source. The model asks for the one
  page of 50, as the source does.
- `fetch_transcripts` never calls `get_youtube_client`, so it never consults the YouTube API
  key (tools/fetch_transcripts.py:43-85).
- `get_video_metrics` builds `VideoIdInput` before it calls `get_youtube_client`
  (tools/get_video_metrics.py:28-33). An invalid id is therefore reported even when no key is set.
- The search tools format only snippet fields and add no per-item statistics
  (tools/search_videos.py:59-79, tools/search_playlists.py:54-76, tools/search_channels.py:42-62).
- Cards.ListingRoundTrip: read-back needs every title, label and value to be a single line. Once
  a field holds a newline the layout is ambiguous, so no parse can recover the fields. The
  `…Spelled` lemmas give the exact text for any contents.
- SearchVideos.BlocksReadBack: holds for results whose fields are single lines only, for the
  reason above. SearchVideos.BlocksSpelled covers every result.
- SearchVideos.CardReadsBack: holds for single-line fields only, for the reason above.
  SearchVideos.BlockSpelled covers every result.
- SearchPlaylists.ListingReadsBack: holds for results whose fields are single lines only.
  SearchPlaylists.ListingSpelled covers every result.
- SearchChannels.ListingReadsBack: holds for results whose fields are single lines only.
  SearchChannels.ListingSpelled covers every result.
- VideoMetrics.BlockReadsBack: holds when the title and counters are single lines only.
  VideoMetrics.BlockSpelled covers every item.
- ChannelMetrics.BlockReadsBack: holds when the title and counters are single lines only.
  ChannelMetrics.BlockSpelled covers every item.
- PlaylistMetrics.BlockReadsBack: holds when the title and id are single lines only.
  PlaylistMetrics.BlockSpelled covers every title and id.

=== FILE: cards.dfy ===
/** The text layout every handler prints: a record is a bold title line followed by one
    `Label: value` line per field, the lines joined with "\n"; a listing is a
    `Found N <noun>:` header, a blank line, and the records separated by blank lines.
    The parsers here are the inverse of that layout, so that what a handler prints can be
    read back field by field. */
module Cards {
  import opened Wrappers
  import opened Text

  /** One formatted record: its title and the values printed after each label. */
  datatype Card = Card(title: string, values: seq<string>)

  predicate SingleLine(s: string) {
    '\n' !in s
  }

  /** A card whose title, labels and values are all free of line breaks, so that each
      occupies exactly one line of the output. */
  predicate FitsLayout(c: Card, labels: seq<string>) {
    && |labels| == |c.values|
    && SingleLine(c.title)
    && (forall i :: 0 <= i < |labels| ==> SingleLine(labels[i]))
    && (forall i :: 0 <= i < |labels| ==> SingleLine(c.values[i]))
  }

  function TitleLine(title: string): string {
    "**" + title + "**"
  }

  function FieldLines(labels: seq<string>, values: seq<string>): (lines: seq<string>)
    requires |labels| == |values|
    ensures |lines| == |labels|
    ensures forall i :: 0 <= i < |lines| ==> lines[i] == labels[i] + values[i]
    decreases |labels|
  {
    if |labels| == 0 then []
    else [labels[0] + values[0]] + FieldLines(labels[1..], values[1..])
  }

  function CardLines(c: Card, labels: seq<string>): seq<string>
    requires |labels| == |c.values|
  {
    [TitleLine(c.title)] + FieldLines(labels, c.values)
  }

  /** The multi-line f-string a handler builds for one record. */
  function RenderCard(c: Card, labels: seq<string>): string
    requires |labels| == |c.values|
  {
    Join("\n", CardLines(c, labels))
  }

  function ParseFields(lines: seq<string>, labels: seq<string>): (r: Option<seq<string>>)
    requires |lines| == |labels|
    ensures r.Some? ==> |r.value| == |labels|
    decreases |lines|
  {
    if |lines| == 0 then Some([])
    else
      var v :- StripPrefix(lines[0], labels[0]);
      var rest :- ParseFields(lines[1..], labels[1..]);
      Some([v] + rest)
  }

  function ParseCardLines(lines: seq<string>, labels: seq<string>): (r: Option<Card>)
    ensures r.Some? ==> |lines| == |labels| + 1 && |r.value.values| == |labels|
  {
    if |lines| != |labels| + 1 then None
    else
      var title :- StripAffixes(lines[0], "**", "**");
      var values :- ParseFields(lines[1..], labels);
      Some(Card(title, values))
  }

  /** Reads one record back from its text, or None when the text does not have the layout; a
      record that reads back has one line per label plus the title line. */
  function ParseCard(text: string, labels: seq<string>): (r: Option<Card>)
    ensures r.Some? ==> |Split(text, '\n')| == |labels| + 1
  {
    ParseCardLines(Split(text, '\n'), labels)
  }

  lemma {:induction false} ParseFieldLines(labels: seq<string>, values: seq<string>)
    requires |labels| == |values|
    ensures ParseFields(FieldLines(labels, values), labels) == Some(values)
    decreases |labels|
  {
    if |labels| > 0 {
      var lines := FieldLines(labels, values);
      var rest := FieldLines(labels[1..], values[1..]);
      assert lines == [labels[0] + values[0]] + rest;
      assert lines[0] == labels[0] + values[0] && lines[1..] == rest;
      ParseFieldLines(labels[1..], values[1..]);
      assert StripPrefix(lines[0], labels[0]) == Some(values[0]) by {
        assert (labels[0] + values[0])[|labels[0]|..] == values[0];
      }
      assert ParseFields(lines, labels) == Some([values[0]] + values[1..]);
      assert [values[0]] + values[1..] == values;
    }
  }

  lemma CardLinesSingle(c: Card, labels: seq<string>)
    requires FitsLayout(c, labels)
    ensures NoneContain(CardLines(c, labels), '\n')
  {
    var lines := CardLines(c, labels);
    forall i | 0 <= i < |lines|
      ensures '\n' !in lines[i]
    {
      if i > 0 {
        assert lines[i] == labels[i - 1] + c.values[i - 1];
      }
    }
  }

  lemma CardLinesRoundTrip(c: Card, labels: seq<string>)
    requires |labels| == |c.values|
    ensures ParseCardLines(CardLines(c, labels), labels) == Some(c)
  {
    var lines := CardLines(c, labels);
    StripAffixesOf("**", c.title, "**");
    assert lines[1..] == FieldLines(labels, c.values);
    ParseFieldLines(labels, c.values);
  }

  /** A record printed with the layout is read back unchanged. */
  lemma CardRoundTrip(c: Card, labels: seq<string>)
    requires FitsLayout(c, labels)
    ensures ParseCard(RenderCard(c, labels), labels) == Some(c)
  {
    CardLinesSingle(c, labels);
    SplitJoin(CardLines(c, labels), '\n');
    CardLinesRoundTrip(c, labels);
  }

  /** A record with three fields is the f-string `"**{title}**\n{l0}{v0}\n{l1}{v1}\n{l2}{v2}"`,
      whatever the fields hold. */
  lemma SpellThree(title: string, labels: seq<string>, values: seq<string>)
    requires |labels| == 3 && |values| == 3
    ensures RenderCard(Card(title, values), labels)
              == "**" + title + "**" + "\n" + labels[0] + values[0] + "\n" + labels[1] + values[1]
                 + "\n" + labels[2] + values[2]
  {
    var f := FieldLines(labels, values);
    var lines := CardLines(Card(title, values), labels);
    assert lines == [TitleLine(title), f[0], f[1], f[2]];
    JoinFour("\n", TitleLine(title), f[0], f[1], f[2]);
  }

  /** A record with four fields is the f-string `"**{title}**\n{l0}{v0}\n{l1}{v1}\n{l2}{v2}\n{l3}{v3}"`,
      whatever the fields hold. */
  lemma SpellFour(title: string, labels: seq<string>, values: seq<string>)
    requires |labels| == 4 && |values| == 4
    ensures RenderCard(Card(title, values), labels)
              == "**" + title + "**" + "\n" + labels[0] + values[0] + "\n" + labels[1] + values[1]
                 + "\n" + labels[2] + values[2] + "\n" + labels[3] + values[3]
  {
    var f := FieldLines(labels, values);
    var lines := CardLines(Card(title, values), labels);
    assert lines == [TitleLine(title), f[0], f[1], f[2], f[3]];
    JoinFive("\n", TitleLine(title), f[0], f[1], f[2], f[3]);
  }

  // ---------------------------------------------------------------- listings

  /** Blocks of lines with one empty line between consecutive blocks. */
  function Stack(blocks: seq<seq<string>>): (lines: seq<string>)
    ensures |blocks| > 0 ==> blocks[0] <= lines
    decreases |blocks|
  {
    if |blocks| == 0 then []
    else if |blocks| == 1 then blocks[0]
    else blocks[0] + [""] + Stack(blocks[1..])
  }

  /** Cuts lines into blocks of `width` lines separated by empty lines; the inverse of `Stack`. */
  function ParseBlocks(lines: seq<string>, width: nat): Option<seq<seq<string>>>
    requires width >= 1
    decreases |lines|
  {
    if |lines| == width then Some([lines])
    else if |lines| > width && lines[width] == "" then
      var rest :- ParseBlocks(lines[width + 1..], width);
      Some([lines[..width]] + rest)
    else None
  }

  lemma {:induction false} ParseStack(blocks: seq<seq<string>>, width: nat)
    requires width >= 1 && |blocks| >= 1
    requires forall i :: 0 <= i < |blocks| ==> |blocks[i]| == width
    ensures ParseBlocks(Stack(blocks), width) == Some(blocks)
    decreases |blocks|
  {
    if |blocks| == 1 {
      assert [blocks[0]] == blocks;
    } else {
      var lines := Stack(blocks);
      var rest := Stack(blocks[1..]);
      assert lines == blocks[0] + [""] + rest;
      assert lines[width] == "";
      assert lines[width + 1..] == rest;
      assert lines[..width] == blocks[0];
      ParseStack(blocks[1..], width);
      assert [blocks[0]] + blocks[1..] == blocks;
    }
  }

  lemma {:induction false} StackSingle(blocks: seq<seq<string>>)
    requires forall i :: 0 <= i < |blocks| ==> NoneContain(blocks[i], '\n')
    ensures NoneContain(Stack(blocks), '\n')
    decreases |blocks|
  {
    if |blocks| > 1 {
      StackSingle(blocks[1..]);
      var rest := Stack(blocks[1..]);
      var lines := blocks[0] + [""] + rest;
      forall i | 0 <= i < |lines|
        ensures '\n' !in lines[i]
      {
        if i < |blocks[0]| {
          assert lines[i] == blocks[0][i];
        } else if i > |blocks[0]| {
          assert lines[i] == rest[i - |blocks[0]| - 1];
        }
      }
    }
  }

  /** `"\n\n".join` of the rendered blocks is `"\n".join` of the stacked lines. */
  lemma {:induction false} JoinBlocks(blocks: seq<seq<string>>, texts: seq<string>)
    requires |blocks| >= 1 && |texts| == |blocks|
    requires forall i :: 0 <= i < |blocks| ==> |blocks[i]| >= 1 && texts[i] == Join("\n", blocks[i])
    ensures Join("\n\n", texts) == Join("\n", Stack(blocks))
    decreases |blocks|
  {
    if |blocks| > 1 {
      JoinBlocks(blocks[1..], texts[1..]);
      var rest := Stack(blocks[1..]);
      assert |rest| >= 1;
      JoinAppend("\n", blocks[0], [""] + rest);
      assert ([""] + rest)[1..] == rest;
      assert blocks[0] + [""] + rest == blocks[0] + ([""] + rest);
    }
  }

  function Header(count: nat, noun: string): string {
    "Found " + NatToString(count) + " " + noun + ":"
  }

  function RenderCards(cards: seq<Card>, labels: seq<string>): (texts: seq<string>)
    requires forall i :: 0 <= i < |cards| ==> |cards[i].values| == |labels|
    ensures |texts| == |cards|
  {
    seq(|cards|, i requires 0 <= i < |cards| => RenderCard(cards[i], labels))
  }

  /** `f"Found {len(cards)} {noun}:\n\n" + "\n\n".join(...)`: the single text the playlist and
      channel searches return. */
  function RenderListing(noun: string, cards: seq<Card>, labels: seq<string>): string
    requires forall i :: 0 <= i < |cards| ==> |cards[i].values| == |labels|
  {
    Header(|cards|, noun) + "\n\n" + Join("\n\n", RenderCards(cards, labels))
  }

  function ParseCardBlocks(blocks: seq<seq<string>>, labels: seq<string>): (r: Option<seq<Card>>)
    ensures r.Some? ==> |r.value| == |blocks|
    decreases |blocks|
  {
    if |blocks| == 0 then Some([])
    else
      var c :- ParseCardLines(blocks[0], labels);
      var rest :- ParseCardBlocks(blocks[1..], labels);
      Some([c] + rest)
  }

  /** Reads a listing back: the records, provided the header's count agrees with them. */
  function ParseListing(text: string, noun: string, labels: seq<string>): Option<seq<Card>> {
    var lines := Split(text, '\n');
    if |lines| < 3 || lines[1] != "" then None
    else
      var digits :- StripAffixes(lines[0], "Found ", " " + noun + ":");
      var count :- ParseDecimal(digits);
      var blocks :- ParseBlocks(lines[2..], |labels| + 1);
      var cards :- ParseCardBlocks(blocks, labels);
      if count == |cards| then Some(cards) else None
  }

  function CardBlocks(cards: seq<Card>, labels: seq<string>): (blocks: seq<seq<string>>)
    requires forall i :: 0 <= i < |cards| ==> |cards[i].values| == |labels|
    ensures |blocks| == |cards|
  {
    seq(|cards|, i requires 0 <= i < |cards| => CardLines(cards[i], labels))
  }

  lemma {:induction false} ParseCardBlocksOf(cards: seq<Card>, labels: seq<string>)
    requires forall i :: 0 <= i < |cards| ==> |cards[i].values| == |labels|
    ensures ParseCardBlocks(CardBlocks(cards, labels), labels) == Some(cards)
    decreases |cards|
  {
    if |cards| > 0 {
      var blocks := CardBlocks(cards, labels);
      CardLinesRoundTrip(cards[0], labels);
      assert blocks[1..] == CardBlocks(cards[1..], labels);
      ParseCardBlocksOf(cards[1..], labels);
      assert [cards[0]] + cards[1..] == cards;
    }
  }

  /** The lines of a listing: header, blank line, then the records separated by blank lines. */
  function ListingLines(noun: string, cards: seq<Card>, labels: seq<string>): seq<string>
    requires forall i :: 0 <= i < |cards| ==> |cards[i].values| == |labels|
  {
    [Header(|cards|, noun), ""] + Stack(CardBlocks(cards, labels))
  }

  lemma ListingAsLines(noun: string, cards: seq<Card>, labels: seq<string>)
    requires |cards| >= 1
    requires forall i :: 0 <= i < |cards| ==> |cards[i].values| == |labels|
    ensures RenderListing(noun, cards, labels) == Join("\n", ListingLines(noun, cards, labels))
  {
    var blocks := CardBlocks(cards, labels);
    JoinBlocks(blocks, RenderCards(cards, labels));
    var body := Stack(blocks);
    var head := [Header(|cards|, noun), ""];
    assert |body| >= 1;
    assert ListingLines(noun, cards, labels) == head + body;
    JoinAppend("\n", head, body);
    assert Join("\n", head) == Header(|cards|, noun) + "\n";
  }

  lemma ListingLinesSingle(noun: string, cards: seq<Card>, labels: seq<string>)
    requires SingleLine(noun)
    requires forall i :: 0 <= i < |cards| ==> |cards[i].values| == |labels|
    requires forall i :: 0 <= i < |cards| ==> FitsLayout(cards[i], labels)
    ensures NoneContain(ListingLines(noun, cards, labels), '\n')
  {
    var blocks := CardBlocks(cards, labels);
    var body := Stack(blocks);
    var all := ListingLines(noun, cards, labels);
    assert '\n' !in NatToString(|cards|);
    forall i | 0 <= i < |blocks|
      ensures NoneContain(blocks[i], '\n')
    {
      CardLinesSingle(cards[i], labels);
    }
    StackSingle(blocks);
    forall i | 0 <= i < |all|
      ensures '\n' !in all[i]
    {
      if i >= 2 {
        assert all[i] == body[i - 2];
      }
    }
  }

  lemma ParseListingLines(noun: string, cards: seq<Card>, labels: seq<string>)
    requires |cards| >= 1
    requires forall i :: 0 <= i < |cards| ==> |cards[i].values| == |labels|
    requires Split(RenderListing(noun, cards, labels), '\n') == ListingLines(noun, cards, labels)
    ensures ParseListing(RenderListing(noun, cards, labels), noun, labels) == Some(cards)
  {
    var all := ListingLines(noun, cards, labels);
    var blocks := CardBlocks(cards, labels);
    var digits := NatToString(|cards|);
    assert |Stack(blocks)| >= 1;
    assert all[2..] == Stack(blocks);
    assert all[0] == "Found " + digits + (" " + noun + ":");
    StripAffixesOf("Found ", digits, " " + noun + ":");
    ParseNatToString(|cards|);
    ParseStack(blocks, |labels| + 1);
    ParseCardBlocksOf(cards, labels);
  }

  /** A non-empty listing is read back as the same records in the same order, and its
      header count is the number of records. */
  lemma ListingRoundTrip(noun: string, cards: seq<Card>, labels: seq<string>)
    requires |cards| >= 1 && SingleLine(noun)
    requires forall i :: 0 <= i < |cards| ==> |cards[i].values| == |labels|
    requires forall i :: 0 <= i < |cards| ==> FitsLayout(cards[i], labels)
    ensures ParseListing(RenderListing(noun, cards, labels), noun, labels) == Some(cards)
  {
    ListingAsLines(noun, cards, labels);
    ListingLinesSingle(noun, cards, labels);
    SplitJoin(ListingLines(noun, cards, labels), '\n');
    ParseListingLines(noun, cards, labels);
  }
}

=== FILE: channel_metrics.dfy ===
/** The `get_channel_metrics` handler: the client first, then the required-id check inside the
    `try` (so its error is rewrapped as unexpected), one `channels` lookup, the first item only,
    counters defaulting to '0'. */
module ChannelMetrics {
  import opened Wrappers
  import opened Text
  import opened Errors
  import opened Utils
  import opened Reshape
  import opened Cards
  import opened YouTubeApi

  const NoChannelFound: string := "No channel found for the given ID."
  const ChannelIdRequired: string := "Channel ID is required"
  const ChannelMetricLabels: seq<string> := ["Subscribers: ", "Total Views: ", "Videos: "]

  function ChannelParams(id: string): Params {
    map["part" := Str("snippet,statistics"), "id" := Str(id)]
  }

  /** `channel_info`, as printed: the title and three counters, each '0' when absent. */
  function MetricsCard(item: ChannelResource): Card {
    Card(item.title, [Counter(item.statistics, "subscriberCount"), Counter(item.statistics, "viewCount"),
                      Counter(item.statistics, "videoCount")])
  }

  function FormatChannelMetrics(items: seq<ChannelResource>): (texts: seq<string>)
    ensures |texts| == 1
  {
    if |items| == 0 then [NoChannelFound] else [RenderCard(MetricsCard(items[0]), ChannelMetricLabels)]
  }

  /** The `try` block. */
  function LookUpChannel(id: string, channels: Endpoint<ChannelResource>): Result<seq<string>, Cause> {
    if id == "" then Err(Required(ChannelIdRequired))
    else
      var body :- Execute(channels(ChannelParams(id)));
      Ok(FormatChannelMetrics(body.Items()))
  }

  /** `get_channel_metrics(arguments)`. */
  function ChannelMetricsTool(env: Environment, channelId: Option<string>, channels: Endpoint<ChannelResource>)
    : (r: Result<seq<string>, YouTubeApiError>)
    ensures GetYouTubeClient(env).Err? ==> r == Err(MissingApiKey)
    ensures r.Ok? <==> GetYouTubeClient(env).Ok? && channelId.GetOr("") != ""
                       && channels(ChannelParams(channelId.GetOr(""))).Response?
    ensures r.Ok? ==> |r.value| == 1
    ensures r.Err? && GetYouTubeClient(env).Ok? ==> NamesSubject(r.error, ChannelId(channelId.GetOr("")))
  {
    var _ :- GetYouTubeClient(env);
    var id := channelId.GetOr("");
    match LookUpChannel(id, channels)
    case Err(c) => Err(Wrap(ChannelId(id), c))
    case Ok(texts) => Ok(texts)
  }

  // ---------------------------------------------------------------- properties

  lemma MissingKeyFirst(env: Environment, channelId: Option<string>, channels: Endpoint<ChannelResource>)
    requires GetYouTubeClient(env).Err?
    ensures ChannelMetricsTool(env, channelId, channels) == Err(MissingApiKey)
  {
  }

  /** A missing or empty id never reaches the endpoint; the "required" error is caught by the
      handler's own catch-all and comes out as an unexpected error. */
  lemma EmptyIdRewrapped(env: Environment, channelId: Option<string>, channels: Endpoint<ChannelResource>)
    requires GetYouTubeClient(env).Ok? && channelId.GetOr("") == ""
    ensures ChannelMetricsTool(env, channelId, channels)
              == Err(YouTubeApiError(UnexpectedPrefix + SubjectText(ChannelId("")) + ": " + ChannelIdRequired))
  {
    assert LookUpChannel(channelId.GetOr(""), channels) == Err(Required(ChannelIdRequired));
  }

  lemma NotFoundMessage(env: Environment, id: string, channels: Endpoint<ChannelResource>)
    requires id != "" && GetYouTubeClient(env).Ok?
    requires channels(ChannelParams(id)).Response? && channels(ChannelParams(id)).body.Items() == []
    ensures ChannelMetricsTool(env, Some(id), channels) == Ok([NoChannelFound])
  {
  }

  /** With a non-empty id and a key, a response is answered with the formatted items of that
      response, nothing else. */
  lemma Answer(env: Environment, id: string, channels: Endpoint<ChannelResource>)
    requires id != "" && GetYouTubeClient(env).Ok? && channels(ChannelParams(id)).Response?
    ensures ChannelMetricsTool(env, Some(id), channels) == Ok(FormatChannelMetrics(channels(ChannelParams(id)).body.Items()))
  {
  }

  /** The block is the handler's f-string for the first item, whatever its fields hold:
      `**{title}**\nSubscribers: {subscribers}\nTotal Views: {views}\nVideos: {videos}`. */
  lemma BlockSpelled(items: seq<ChannelResource>)
    requires |items| > 0
    ensures FormatChannelMetrics(items)
              == ["**" + items[0].title + "**\nSubscribers: " + Counter(items[0].statistics, "subscriberCount")
                  + "\nTotal Views: " + Counter(items[0].statistics, "viewCount")
                  + "\nVideos: " + Counter(items[0].statistics, "videoCount")]
  {
    var c := MetricsCard(items[0]);
    SpellThree(c.title, ChannelMetricLabels, c.values);
    LabelsSpelled(c.title, c.values[0], c.values[1], c.values[2]);
  }

  lemma LabelsSpelled(title: string, subscribers: string, views: string, videos: string)
    ensures "**" + title + "**" + "\n" + ChannelMetricLabels[0] + subscribers + "\n" + ChannelMetricLabels[1] + views
              + "\n" + ChannelMetricLabels[2] + videos
            == "**" + title + "**\nSubscribers: " + subscribers + "\nTotal Views: " + views + "\nVideos: " + videos
  {
    assert ChannelMetricLabels[0] == "Subscribers: " && ChannelMetricLabels[1] == "Total Views: ";
    assert ChannelMetricLabels[2] == "Videos: ";
    assert "**" + "\n" == "**\n" && "**\n" + "Subscribers: " == "**\nSubscribers: ";
    assert "\n" + "Total Views: " == "\nTotal Views: " && "\n" + "Videos: " == "\nVideos: ";
    var t := "**" + title;
    Regroup(t, "**", "\n");
    Regroup(t, "**\n", "Subscribers: ");
    var s := t + "**\nSubscribers: " + subscribers;
    Regroup(s, "\n", "Total Views: ");
    var v := s + "\nTotal Views: " + views;
    Regroup(v, "\n", "Videos: ");
  }

  lemma OnlyFirstItemUsed(a: seq<ChannelResource>, b: seq<ChannelResource>)
    requires |a| > 0 && |b| > 0 && a[0] == b[0]
    ensures FormatChannelMetrics(a) == FormatChannelMetrics(b)
  {
  }

  /** The block has exactly four lines, which read back as the first item's title and its
      subscriber, view and video counts, with '0' standing for an absent counter. */
  lemma BlockReadsBack(items: seq<ChannelResource>)
    requires |items| > 0
    requires SingleLine(items[0].title)
    requires forall k :: k in items[0].statistics ==> SingleLine(items[0].statistics[k])
    ensures |Split(FormatChannelMetrics(items)[0], '\n')| == 4
    ensures ParseCard(FormatChannelMetrics(items)[0], ChannelMetricLabels)
              == Some(Card(items[0].title, [Counter(items[0].statistics, "subscriberCount"),
                                            Counter(items[0].statistics, "viewCount"),
                                            Counter(items[0].statistics, "videoCount")]))
  {
    var c := MetricsCard(items[0]);
    assert forall i :: 0 <= i < |ChannelMetricLabels| ==> SingleLine(ChannelMetricLabels[i]);
    assert forall i :: 0 <= i < |c.values| ==> SingleLine(c.values[i]);
    CardRoundTrip(c, ChannelMetricLabels);
  }
}

=== FILE: errors.dfy ===
/** The one error kind of the system, `YouTubeAPIError`, and the messages the handlers put in it.
    Every handler catches what its `try` block raises and raises a fresh `YouTubeAPIError`
    whose message names the query or id it was working on and ends with `str(e)`. */
module Errors {
  import opened Text

  /** `YouTubeAPIError`: only a tag and a message. */
  datatype YouTubeApiError = YouTubeApiError(message: string)

  /** An exception raised inside a handler's `try` block, before the handler rewraps it. */
  datatype Cause =
    | InvalidOrder(order: string)                // ValueError from `validate_youtube_params`
    | InvalidDuration(duration: string)          // ValueError from `validate_youtube_params`
    | InvalidPublishedAfter(value: string)       // ValueError from either timestamp check
    | Required(what: string)                     // YouTubeAPIError("... ID is required")
    | InvalidLiteral(literal: string)            // ValueError from `int(...)`: not a decimal literal
    | DigitLimit(digits: nat)                    // ValueError from `int(...)`: more digits than the cap
    | StrDigitLimit                              // ValueError from `str(n)`: more digits than the cap
    | HttpFailure(detail: string)                // `googleapiclient.errors.HttpError`
    | OtherFailure(detail: string)               // any other exception

  const IntLiteralPrefix: string := "invalid literal for int() with base 10: "

  /** The `%.200R` in CPython's message: at most this many characters of the literal's repr are shown. */
  const LiteralShown: nat := 200

  /** The head of CPython's message for the digit cap; the number in it is MaxStrDigits (Text.NatToStringSpelled). */
  const DigitCapText: string := "Exceeds the limit (4300 digits) for integer string conversion"
  const DigitCapAdvice: string := "use sys.set_int_max_str_digits() to increase the limit"

  const OrderLead: string := "Invalid order parameter: "
  const DurationLead: string := "Invalid duration parameter: "
  const PublishedAfterLead: string := "Invalid published_after format: "
  /** The sets of `validate_youtube_params`, in the source's listing order. */
  const OrderChoices: string := "Must be one of {'relevance', 'date', 'rating', 'viewCount'}"
  const DurationChoices: string := "Must be one of {'any', 'short', 'medium', 'long'}"
  const PublishedAfterForm: string := "Must be RFC 3339 (e.g., 2023-01-01T00:00:00Z)"

  /** A validation message: a lead naming the check, the rejected value, then what is allowed. */
  function Sentence(lead: string, value: string, rest: string): (m: string)
    ensures lead + value + ". " <= m && |m| == |lead| + |value| + 2 + |rest|
  {
    var head := lead + value + ". ";
    var m := head + rest;
    assert m[..|head|] == head;
    m
  }

  /** CPython's message for the digit cap, with what it says about the value in the middle. */
  function CapMessage(middle: string): (m: string)
    ensures DigitCapText <= m && EndsWith(m, DigitCapAdvice)
  {
    var m := DigitCapText + middle + DigitCapAdvice;
    assert m[..|DigitCapText|] == DigitCapText;
    assert m[|m| - |DigitCapAdvice|..] == DigitCapAdvice;
    m
  }

  /** CPython's message for a string `int()` cannot read, its repr cut to LiteralShown characters. */
  function LiteralMessage(l: string): (m: string)
    ensures IntLiteralPrefix <= m && |m| <= |IntLiteralPrefix| + LiteralShown
    ensures m == IntLiteralPrefix + Repr(l) <==> |Repr(l)| <= LiteralShown
  {
    var shown := Precision(Repr(l), LiteralShown);
    var m := IntLiteralPrefix + shown;
    assert m[..|IntLiteralPrefix|] == IntLiteralPrefix;
    assert m == IntLiteralPrefix + Repr(l) ==> shown == Repr(l) by {
      if m == IntLiteralPrefix + Repr(l) {
        assert shown == m[|IntLiteralPrefix|..] == Repr(l);
      }
    }
    m
  }

  /** `str(e)` for the exception a cause stands for. */
  function Describe(c: Cause): (d: string)
    ensures c.InvalidOrder? ==> OrderLead + c.order + ". " <= d
    ensures c.InvalidDuration? ==> DurationLead + c.duration + ". " <= d
    ensures c.InvalidPublishedAfter? ==> PublishedAfterLead + c.value + ". " <= d
    ensures c.Required? ==> d == c.what
    ensures c.HttpFailure? ==> d == c.detail
    ensures c.OtherFailure? ==> d == c.detail
    ensures c.InvalidLiteral? ==>
              && IntLiteralPrefix <= d
              && |d| <= |IntLiteralPrefix| + LiteralShown
              && (d == IntLiteralPrefix + Repr(c.literal) <==> |Repr(c.literal)| <= LiteralShown)
    ensures c.DigitLimit? || c.StrDigitLimit? ==> DigitCapText <= d && EndsWith(d, DigitCapAdvice)
  {
    match c
    case InvalidOrder(o) =>
      Sentence(OrderLead, o, OrderChoices)
    case InvalidDuration(d) =>
      Sentence(DurationLead, d, DurationChoices)
    case InvalidPublishedAfter(v) =>
      Sentence(PublishedAfterLead, v, PublishedAfterForm)
    case Required(what) => what
    case InvalidLiteral(l) => LiteralMessage(l)
    case DigitLimit(n) => CapMessage(": value has " + NatToString(n) + " digits; ")
    case StrDigitLimit => CapMessage("; ")
    case HttpFailure(d) => d
    case OtherFailure(d) => d
  }

  /** A literal whose repr is longer than the shown part loses its closing quote: with no character
      to escape, the message shows the opening quote and the first 199 characters. */
  lemma LongLiteralCut(l: string)
    requires |l| >= LiteralShown - 1
    requires forall i :: 0 <= i < |l| ==> l[i] !in {'\'', '\\', '\n', '\r', '\t'}
    ensures Describe(InvalidLiteral(l)) == IntLiteralPrefix + "'" + l[..LiteralShown - 1]
  {
    ReprPlain(l);
    assert Repr(l)[..LiteralShown] == "'" + l[..LiteralShown - 1];
  }

  /** The message of the digit cap for a literal one digit too long: CPython's text with the
      count written in. */
  lemma DigitLimitSpelled()
    ensures Describe(DigitLimit(4301)) == DigitCapText + ": value has 4301 digits; " + DigitCapAdvice
  {
    CountSpelled();
  }

  lemma CountSpelled()
    ensures ": value has " + NatToString(4301) + " digits; " == ": value has 4301 digits; "
  {
    NatToStringSpelled();
    assert ": value has " + "4301" == ": value has 4301";
  }

  /** The identifying parameter a handler names in its error messages. */
  datatype Subject =
    | Query(query: string)
    | VideoId(videoId: string)
    | ChannelId(channelId: string)
    | PlaylistId(playlistId: string)

  function SubjectText(s: Subject): string {
    match s
    case Query(q) => "query '" + q + "'"
    case VideoId(id) => "video ID '" + id + "'"
    case ChannelId(id) => "channel ID '" + id + "'"
    case PlaylistId(id) => "playlist ID '" + id + "'"
  }

  const ApiErrorPrefix: string := "YouTube API error for "
  const UnexpectedPrefix: string := "Unexpected error for "

  /** The two `except` clauses of a handler: `HttpError` is reported as a YouTube API error,
      every other exception as an unexpected error; both name the subject and end with the cause. */
  function Wrap(s: Subject, c: Cause): (e: YouTubeApiError)
    ensures c.HttpFailure? <==> ApiErrorPrefix + SubjectText(s) + ": " <= e.message
    ensures !c.HttpFailure? <==> UnexpectedPrefix + SubjectText(s) + ": " <= e.message
    ensures EndsWith(e.message, Describe(c))
  {
    var prefix := if c.HttpFailure? then ApiErrorPrefix else UnexpectedPrefix;
    var m := prefix + SubjectText(s) + ": " + Describe(c);
    assert m[|m| - |Describe(c)|..] == Describe(c);
    assert ApiErrorPrefix[0] != UnexpectedPrefix[0];
    assert m[0] == prefix[0];
    YouTubeApiError(m)
  }

  /** A digit-cap error, rewrapped by a handler, still ends with CPython's advice. */
  lemma CapErrorAdvises(s: Subject, c: Cause)
    requires c.DigitLimit? || c.StrDigitLimit?
    ensures UnexpectedPrefix + SubjectText(s) + ": " <= Wrap(s, c).message
    ensures EndsWith(Wrap(s, c).message, DigitCapAdvice)
  {
    var m := Wrap(s, c).message;
    var d := Describe(c);
    assert m[|m| - |DigitCapAdvice|..] == d[|d| - |DigitCapAdvice|..];
  }

  /** `e` is one of the two messages a handler's `except` clauses raise about subject `s`. */
  predicate NamesSubject(e: YouTubeApiError, s: Subject) {
    || ApiErrorPrefix + SubjectText(s) + ": " <= e.message
    || UnexpectedPrefix + SubjectText(s) + ": " <= e.message
  }

  /** Raised by `get_youtube_client` when no key is configured. */
  const MissingApiKey: YouTubeApiError := YouTubeApiError("YouTube API key is not set in environment variables")

  const InvalidInputPrefix: string := "Invalid input arguments: "

  /** Raised when an input model rejects the arguments of a handler. */
  function InvalidInput(detail: string): (e: YouTubeApiError)
    ensures InvalidInputPrefix <= e.message && e.message[|InvalidInputPrefix|..] == detail
  {
    YouTubeApiError(InvalidInputPrefix + detail)
  }
}

=== FILE: models.dfy ===
/** The pydantic input models: `SearchVideosInput`, `SearchChannelsInput`,
    `SearchPlaylistsInput` and the three id inputs. Pydantic checks every field and reports all
    failures together in one `ValidationError`, in field declaration order; a field that is not
    supplied takes its default, and defaults are not re-validated. */
module Models {
  import opened Wrappers
  import opened Text
  import opened Timestamp
  import Utils
  import Reshape

  /** The argument dictionary of a search handler; None stands for a key that is not there. */
  datatype SearchArgs = SearchArgs(
    query: Option<string>,
    maxResults: Option<int>,
    order: Option<string>,
    duration: Option<string>,
    publishedAfter: Option<string>)

  datatype Field =
    | QueryField | MaxResultsField | OrderField | DurationField | PublishedAfterField
    | VideoIdField | ChannelIdField | PlaylistIdField

  datatype Problem = Missing | TooShort | BelowMinimum | AboveMaximum | NotAllowed | BadTimestamp

  datatype FieldError = FieldError(field: Field, problem: Problem)

  const DefaultOrder: string := "relevance"
  const DefaultDuration: string := "medium"
  /** The durations `SearchVideosInput` admits: two fewer than `validate_youtube_params`. */
  const ModelDurations: set<string> := {"medium", "long"}

  function FieldsOf(errors: seq<FieldError>): set<Field> {
    set e | e in errors :: e.field
  }

  lemma FieldsOfAppend(a: seq<FieldError>, b: seq<FieldError>)
    ensures FieldsOf(a + b) == FieldsOf(a) + FieldsOf(b)
  {
    assert forall e :: e in a + b <==> e in a || e in b;
  }

  // ---------------------------------------------------------------- one check per field

  /** `Field(..., min_length=1)` on a required string. */
  predicate RequiredTextValid(v: Option<string>) {
    v.Some? && |v.value| >= 1
  }

  /** The set of fields a check reports: the field itself when it fails, nothing otherwise. */
  function Flag(f: Field, valid: bool): set<Field> {
    if valid then {} else {f}
  }

  function RequiredTextErrors(f: Field, v: Option<string>): (es: seq<FieldError>)
    ensures es == [] <==> RequiredTextValid(v)
    ensures FieldsOf(es) == Flag(f, RequiredTextValid(v))
  {
    match v
    case None => [FieldError(f, Missing)]
    case Some(s) => if |s| < 1 then [FieldError(f, TooShort)] else []
  }

  /** `Field(25, ge=1, le=50)`. */
  predicate MaxResultsValid(v: Option<int>) {
    v.None? || 1 <= v.value <= Reshape.ApiMaxResults
  }

  function MaxResultsErrors(v: Option<int>): (es: seq<FieldError>)
    ensures es == [] <==> MaxResultsValid(v)
    ensures FieldsOf(es) == Flag(MaxResultsField, MaxResultsValid(v))
  {
    match v
    case None => []
    case Some(k) =>
      if k < 1 then [FieldError(MaxResultsField, BelowMinimum)]
      else if k > Reshape.ApiMaxResults then [FieldError(MaxResultsField, AboveMaximum)]
      else []
  }

  /** A `field_validator` that raises unless the supplied value is in `allowed`. */
  predicate MemberValid(v: Option<string>, allowed: set<string>) {
    v.None? || v.value in allowed
  }

  function MemberErrors(f: Field, v: Option<string>, allowed: set<string>): (es: seq<FieldError>)
    ensures es == [] <==> MemberValid(v, allowed)
    ensures FieldsOf(es) == Flag(f, MemberValid(v, allowed))
  {
    if MemberValid(v, allowed) then [] else [FieldError(f, NotAllowed)]
  }

  function PublishedAfterErrors(v: Option<string>): (es: seq<FieldError>)
    ensures es == [] <==> AcceptsPublishedAfter(v)
    ensures FieldsOf(es) == Flag(PublishedAfterField, AcceptsPublishedAfter(v))
  {
    if AcceptsPublishedAfter(v) then [] else [FieldError(PublishedAfterField, BadTimestamp)]
  }

  // ---------------------------------------------------------------- SearchVideosInput

  datatype SearchVideosInput = SearchVideosInput(
    query: string, maxResults: int, order: string, duration: string, publishedAfter: Option<string>)

  function SearchVideosErrors(a: SearchArgs): (es: seq<FieldError>)
    ensures es == [] <==>
      && RequiredTextValid(a.query) && MaxResultsValid(a.maxResults)
      && MemberValid(a.order, Utils.ValidOrders) && MemberValid(a.duration, ModelDurations)
      && AcceptsPublishedAfter(a.publishedAfter)
    ensures FieldsOf(es) ==
      Flag(QueryField, RequiredTextValid(a.query)) + Flag(MaxResultsField, MaxResultsValid(a.maxResults))
      + Flag(OrderField, MemberValid(a.order, Utils.ValidOrders))
      + Flag(DurationField, MemberValid(a.duration, ModelDurations))
      + Flag(PublishedAfterField, AcceptsPublishedAfter(a.publishedAfter))
  {
    var q := RequiredTextErrors(QueryField, a.query);
    var m := MaxResultsErrors(a.maxResults);
    var o := MemberErrors(OrderField, a.order, Utils.ValidOrders);
    var d := MemberErrors(DurationField, a.duration, ModelDurations);
    var p := PublishedAfterErrors(a.publishedAfter);
    FieldsOfAppend(q, m);
    FieldsOfAppend(q + m, o);
    FieldsOfAppend(q + m + o, d);
    FieldsOfAppend(q + m + o + d, p);
    q + m + o + d + p
  }

  /** `SearchVideosInput(**arguments)`: accepted exactly when every field passes, with the
      defaults filled in; otherwise the reported fields are exactly the failing ones. */
  function ValidateSearchVideosInput(a: SearchArgs): (r: Result<SearchVideosInput, seq<FieldError>>)
    ensures r.Ok? <==>
      && RequiredTextValid(a.query) && MaxResultsValid(a.maxResults)
      && MemberValid(a.order, Utils.ValidOrders) && MemberValid(a.duration, ModelDurations)
      && AcceptsPublishedAfter(a.publishedAfter)
    ensures r.Ok? ==>
      && r.value.query == a.query.value && |r.value.query| >= 1
      && 1 <= r.value.maxResults <= Reshape.ApiMaxResults
      && r.value.maxResults == a.maxResults.GetOr(Reshape.DefaultMaxResults)
      && r.value.order in Utils.ValidOrders && r.value.order == a.order.GetOr(DefaultOrder)
      && r.value.duration in ModelDurations && r.value.duration == a.duration.GetOr(DefaultDuration)
      && r.value.publishedAfter == a.publishedAfter
    ensures r.Err? ==> |r.error| >= 1
    ensures r.Err? ==>
              FieldsOf(r.error) ==
                Flag(QueryField, RequiredTextValid(a.query)) + Flag(MaxResultsField, MaxResultsValid(a.maxResults))
                + Flag(OrderField, MemberValid(a.order, Utils.ValidOrders))
                + Flag(DurationField, MemberValid(a.duration, ModelDurations))
                + Flag(PublishedAfterField, AcceptsPublishedAfter(a.publishedAfter))
  {
    var errors := SearchVideosErrors(a);
    if errors == [] then
      Ok(SearchVideosInput(a.query.value, a.maxResults.GetOr(Reshape.DefaultMaxResults),
                           a.order.GetOr(DefaultOrder), a.duration.GetOr(DefaultDuration), a.publishedAfter))
    else Err(errors)
  }

  // ---------------------------------------------------------------- SearchChannelsInput, SearchPlaylistsInput

  /** The fields `SearchChannelsInput` and `SearchPlaylistsInput` both declare, with the same checks. */
  datatype SearchListInput = SearchListInput(query: string, maxResults: int, publishedAfter: Option<string>)

  function SearchListErrors(a: SearchArgs): (es: seq<FieldError>)
    ensures es == [] <==>
      RequiredTextValid(a.query) && MaxResultsValid(a.maxResults) && AcceptsPublishedAfter(a.publishedAfter)
    ensures FieldsOf(es) ==
      Flag(QueryField, RequiredTextValid(a.query)) + Flag(MaxResultsField, MaxResultsValid(a.maxResults))
      + Flag(PublishedAfterField, AcceptsPublishedAfter(a.publishedAfter))
  {
    var q := RequiredTextErrors(QueryField, a.query);
    var m := MaxResultsErrors(a.maxResults);
    var p := PublishedAfterErrors(a.publishedAfter);
    FieldsOfAppend(q, m);
    FieldsOfAppend(q + m, p);
    q + m + p
  }

  /** `SearchChannelsInput(**arguments)` and `SearchPlaylistsInput(**arguments)`: `order` and
      `duration` are not fields of these models and are ignored. */
  function ValidateSearchListInput(a: SearchArgs): (r: Result<SearchListInput, seq<FieldError>>)
    ensures r.Ok? <==>
      RequiredTextValid(a.query) && MaxResultsValid(a.maxResults) && AcceptsPublishedAfter(a.publishedAfter)
    ensures r.Ok? ==>
      && r.value.query == a.query.value && |r.value.query| >= 1
      && 1 <= r.value.maxResults <= Reshape.ApiMaxResults
      && r.value.maxResults == a.maxResults.GetOr(Reshape.DefaultMaxResults)
      && r.value.publishedAfter == a.publishedAfter
    ensures r.Err? ==> |r.error| >= 1
    ensures r.Err? ==>
              FieldsOf(r.error) ==
                Flag(QueryField, RequiredTextValid(a.query)) + Flag(MaxResultsField, MaxResultsValid(a.maxResults))
                + Flag(PublishedAfterField, AcceptsPublishedAfter(a.publishedAfter))
  {
    var errors := SearchListErrors(a);
    if errors == [] then
      Ok(SearchListInput(a.query.value, a.maxResults.GetOr(Reshape.DefaultMaxResults), a.publishedAfter))
    else Err(errors)
  }

  // ---------------------------------------------------------------- id inputs

  /** `VideoIdInput`, `ChannelIdInput`, `PlaylistIdInput`: one required, non-empty string. */
  function ValidateIdInput(f: Field, v: Option<string>): (r: Result<string, seq<FieldError>>)
    ensures r.Ok? <==> v.Some? && v.value != ""
    ensures r.Ok? ==> r.value == v.value
    ensures r.Err? ==> r.error == [FieldError(f, if v.None? then Missing else TooShort)]
  {
    var errors := RequiredTextErrors(f, v);
    if errors == [] then Ok(v.value) else Err(errors)
  }

  function FieldName(f: Field): string {
    match f
    case QueryField => "query"
    case MaxResultsField => "max_results"
    case OrderField => "order"
    case DurationField => "duration"
    case PublishedAfterField => "published_after"
    case VideoIdField => "video_id"
    case ChannelIdField => "channel_id"
    case PlaylistIdField => "playlist_id"
  }

  function ProblemText(p: Problem): string {
    match p
    case Missing => "Field required"
    case TooShort => "String should have at least 1 character"
    case BelowMinimum => "Input should be greater than or equal to 1"
    case AboveMaximum => "Input should be less than or equal to 50"
    case NotAllowed => "Value error, value not allowed"
    case BadTimestamp => "Value error, Invalid published_after format"
  }

  /** A readable rendering of a `ValidationError`: one `field: problem` entry per failure. */
  function ErrorsText(errors: seq<FieldError>): string {
    Join("; ", seq(|errors|, i requires 0 <= i < |errors| => FieldName(errors[i].field) + ": " + ProblemText(errors[i].problem)))
  }

  // ---------------------------------------------------------------- the models against the handler checks

  /** `SearchVideosInput` is stricter than `validate_youtube_params`: whatever the model accepts,
      the handler's own check accepts too once the handler's defaults are filled in. */
  lemma VideosModelStricterThanHandlerCheck(a: SearchArgs)
    requires ValidateSearchVideosInput(a).Ok?
    ensures Utils.ValidateYouTubeParams(a.order.GetOr(DefaultOrder), a.duration.GetOr(DefaultDuration), a.publishedAfter).Ok?
    ensures Reshape.ClampMaxResults(a.maxResults) == ValidateSearchVideosInput(a).value.maxResults
  {
  }

  /** The two duration sets disagree: "any" and "short" pass the handler's check, not the model. */
  lemma DurationSetsDisagree()
    ensures ModelDurations < Utils.ValidDurations
    ensures Utils.ValidDurations - ModelDurations == {"any", "short"}
    ensures ValidateSearchVideosInput(SearchArgs(Some("cats"), None, None, Some("any"), None)).Err?
    ensures Utils.ValidateYouTubeParams(DefaultOrder, "any", None).Ok?
  {
  }
}

=== FILE: playlist_metrics.dfy ===
/** The `get_playlist_metrics` handler: the required-id check inside the `try`, the `playlists`
    lookup for the title, one page of `playlistItems` for the item count, and one `videos`
    lookup whose view counts are summed. */
module PlaylistMetrics {
  import opened Wrappers
  import opened Text
  import opened Errors
  import opened Utils
  import opened Reshape
  import opened Cards
  import opened YouTubeApi

  const NoPlaylistFound: string := "No playlist found for the given ID."
  const PlaylistIdRequired: string := "Playlist ID is required"
  const PlaylistMetricLabels: seq<string> := ["Playlist ID: ", "Items: ", "Total Views: "]
  /** The page size asked of `playlistItems`; later pages are never fetched. */
  const ItemsPageSize: int := 50

  /** The three endpoints this handler uses. */
  datatype PlaylistBackend = PlaylistBackend(
    playlists: Endpoint<PlaylistResource>,
    playlistItems: Endpoint<PlaylistItemResource>,
    videos: Endpoint<VideoResource>)

  function PlaylistParams(id: string): Params {
    map["part" := Str("snippet"), "id" := Str(id)]
  }

  function PlaylistItemsParams(id: string): Params {
    map["part" := Str("contentDetails"), "playlistId" := Str(id), "maxResults" := Number(ItemsPageSize)]
  }

  /** `id=','.join(video_ids)`. */
  function VideosParams(videoIds: seq<string>): Params {
    map["part" := Str("statistics"), "id" := Str(Join(",", videoIds))]
  }

  /** `int(item['statistics'].get('viewCount', 0))`: 0 when absent, `int` of the string otherwise.
      `int` raises on anything but a decimal literal, and on a literal longer than the digit cap. */
  function ViewCount(statistics: map<string, string>): (r: Result<nat, Cause>)
    ensures "viewCount" !in statistics ==> r == Ok(0)
    ensures "viewCount" in statistics ==>
              (r.Ok? <==> ParseDecimal(statistics["viewCount"]).Some? && |statistics["viewCount"]| <= MaxStrDigits)
    ensures "viewCount" in statistics && ParseDecimal(statistics["viewCount"]).None? ==>
              r == Err(InvalidLiteral(statistics["viewCount"]))
    ensures "viewCount" in statistics && |statistics["viewCount"]| > MaxStrDigits && AllDigits(statistics["viewCount"]) ==>
              r == Err(DigitLimit(|statistics["viewCount"]|))
    ensures "viewCount" in statistics && r.Ok?
              && (statistics["viewCount"][0] != '0' || statistics["viewCount"] == "0") ==>
              NatToString(r.value) == statistics["viewCount"]
  {
    if "viewCount" in statistics then
      var literal := statistics["viewCount"];
      match ParseDecimal(literal)
      case Some(n) =>
        if |literal| > MaxStrDigits then Err(DigitLimit(|literal|))
        else
          CanonicalDigits(literal);
          Ok(n)
      case None => Err(InvalidLiteral(literal))
    else Ok(0)
  }

  /** A digit string without a leading zero, and "0" itself, is `str` of its value. */
  lemma {:induction false} CanonicalDigits(s: string)
    requires |s| >= 1 && AllDigits(s)
    ensures s[0] != '0' || s == "0" ==> NatToString(DigitsValue(s)) == s
    decreases |s|
  {
    if s[0] != '0' && |s| > 1 {
      var init := s[..|s| - 1];
      CanonicalDigits(init);
      var v := DigitsValue(init);
      var d := DigitValue(s[|s| - 1]);
      LeadingDigitPositive(init);
      assert (v * 10 + d) / 10 == v && (v * 10 + d) % 10 == d;
      assert DigitChar(d) == s[|s| - 1];
      assert init + [s[|s| - 1]] == s;
    }
  }

  lemma {:induction false} LeadingDigitPositive(s: string)
    requires |s| >= 1 && AllDigits(s) && s[0] != '0'
    ensures DigitsValue(s) >= 1
    decreases |s|
  {
    if |s| > 1 {
      LeadingDigitPositive(s[..|s| - 1]);
    }
  }

  /** `sum(int(...) for item in items)`: evaluated left to right, the first bad count raises. */
  function TotalViews(videos: seq<VideoResource>): Result<nat, Cause>
    decreases |videos|
  {
    if |videos| == 0 then Ok(0)
    else
      var first :- ViewCount(videos[0].statistics);
      var rest :- TotalViews(videos[1..]);
      Ok(first + rest)
  }

  function Sum(xs: seq<nat>): nat
    decreases |xs|
  {
    if |xs| == 0 then 0 else xs[0] + Sum(xs[1..])
  }

  /** Video `i`'s view count reads as `counts[i]`, for every video. */
  predicate ReadsAs(videos: seq<VideoResource>, counts: seq<nat>) {
    |videos| == |counts| && forall i :: 0 <= i < |videos| ==> ViewCount(videos[i].statistics) == Ok(counts[i])
  }

  /** When every video's count reads as `counts[i]` (0 for a missing one) the total is their sum. */
  lemma {:induction false} TotalViewsIsSum(videos: seq<VideoResource>, counts: seq<nat>)
    requires ReadsAs(videos, counts)
    ensures TotalViews(videos) == Ok(Sum(counts))
    decreases |videos|
  {
    if |videos| > 0 {
      TotalViewsIsSum(videos[1..], counts[1..]);
    }
  }

  /** The sum stops at the first unreadable count and reports that count's literal. */
  lemma {:induction false} TotalViewsFailsAtFirstBadCount(videos: seq<VideoResource>, k: nat)
    requires k < |videos| && ViewCount(videos[k].statistics).Err?
    requires forall i :: 0 <= i < k ==> ViewCount(videos[i].statistics).Ok?
    ensures TotalViews(videos) == Err(ViewCount(videos[k].statistics).error)
    decreases k
  {
    if k > 0 {
      TotalViewsFailsAtFirstBadCount(videos[1..], k - 1);
    }
  }

  /** Item count and total views; no `videos` lookup when the playlist has no items. */
  function CountAndViews(id: string, api: PlaylistBackend): Result<(nat, nat), Cause> {
    var itemsBody :- Execute(api.playlistItems(PlaylistItemsParams(id)));
    var items := itemsBody.Items();
    var videoIds := seq(|items|, i requires 0 <= i < |items| => items[i].videoId);
    if |videoIds| == 0 then Ok((0, 0))
    else
      var videosBody :- Execute(api.videos(VideosParams(videoIds)));
      var total :- TotalViews(videosBody.Items());
      Ok((|videoIds|, total))
  }

  function MetricsCard(title: string, id: string, itemCount: nat, totalViews: nat): Card {
    Card(title, [id, NatToString(itemCount), NatToString(totalViews)])
  }

  /** The `try` block; formatting the block calls `str` on both counts, which raises past the digit cap. */
  function LookUpPlaylist(id: string, api: PlaylistBackend): Result<seq<string>, Cause> {
    if id == "" then Err(Required(PlaylistIdRequired))
    else
      var playlistsBody :- Execute(api.playlists(PlaylistParams(id)));
      var playlists := playlistsBody.Items();
      if |playlists| == 0 then Ok([NoPlaylistFound])
      else
        var title := playlists[0].title;
        var counts :- CountAndViews(id, api);
        if !Printable(counts.0) || !Printable(counts.1) then Err(StrDigitLimit)
        else Ok([RenderCard(MetricsCard(title, id, counts.0, counts.1), PlaylistMetricLabels)])
  }

  /** `get_playlist_metrics(arguments)`. */
  function PlaylistMetricsTool(env: Environment, playlistId: Option<string>, api: PlaylistBackend)
    : (r: Result<seq<string>, YouTubeApiError>)
    ensures GetYouTubeClient(env).Err? ==> r == Err(MissingApiKey)
    ensures r.Ok? ==> |r.value| == 1
    ensures r.Err? && GetYouTubeClient(env).Ok? ==> NamesSubject(r.error, PlaylistId(playlistId.GetOr("")))
  {
    var _ :- GetYouTubeClient(env);
    var id := playlistId.GetOr("");
    match LookUpPlaylist(id, api)
    case Err(c) => Err(Wrap(PlaylistId(id), c))
    case Ok(texts) => Ok(texts)
  }

  // ---------------------------------------------------------------- properties

  lemma MissingKeyFirst(env: Environment, playlistId: Option<string>, api: PlaylistBackend)
    requires GetYouTubeClient(env).Err?
    ensures PlaylistMetricsTool(env, playlistId, api) == Err(MissingApiKey)
  {
  }

  /** A missing or empty id never reaches an endpoint; the "required" error is caught by the
      handler's own catch-all and comes out as an unexpected error. */
  lemma EmptyIdRewrapped(env: Environment, playlistId: Option<string>, api: PlaylistBackend)
    requires GetYouTubeClient(env).Ok? && playlistId.GetOr("") == ""
    ensures PlaylistMetricsTool(env, playlistId, api)
              == Err(YouTubeApiError(UnexpectedPrefix + SubjectText(PlaylistId("")) + ": " + PlaylistIdRequired))
  {
    assert LookUpPlaylist(playlistId.GetOr(""), api) == Err(Required(PlaylistIdRequired));
  }

  /** An unknown playlist gives the fixed text, and the other two endpoints are never used. */
  lemma NotFoundMessage(env: Environment, id: string, api: PlaylistBackend, other: PlaylistBackend)
    requires id != "" && GetYouTubeClient(env).Ok?
    requires api.playlists(PlaylistParams(id)).Response? && api.playlists(PlaylistParams(id)).body.Items() == []
    requires other.playlists == api.playlists
    ensures PlaylistMetricsTool(env, Some(id), api) == Ok([NoPlaylistFound])
    ensures PlaylistMetricsTool(env, Some(id), other) == Ok([NoPlaylistFound])
  {
  }

  /** An empty playlist reports 0 items and 0 views without asking the `videos` endpoint. */
  lemma EmptyPlaylistSkipsVideos(id: string, api: PlaylistBackend, videos: Endpoint<VideoResource>)
    requires api.playlistItems(PlaylistItemsParams(id)).Response?
    requires api.playlistItems(PlaylistItemsParams(id)).body.Items() == []
    ensures CountAndViews(id, api) == Ok((0, 0))
    ensures CountAndViews(id, api.(videos := videos)) == Ok((0, 0))
  {
  }

  /** The item count is the number of playlist items returned (one page of at most 50 asked
      for) and the total is the sum of the returned videos' counts, a missing count being 0. */
  lemma CountsAreItemsAndSum(id: string, api: PlaylistBackend, counts: seq<nat>)
    requires api.playlistItems(PlaylistItemsParams(id)).Response?
    requires |api.playlistItems(PlaylistItemsParams(id)).body.Items()| > 0
    requires api.videos(VideosParams(VideoIdsOf(api.playlistItems(PlaylistItemsParams(id)).body.Items()))).Response?
    requires ReadsAs(api.videos(VideosParams(VideoIdsOf(api.playlistItems(PlaylistItemsParams(id)).body.Items()))).body.Items(), counts)
    ensures PlaylistItemsParams(id)["maxResults"] == Number(ItemsPageSize)
    ensures CountAndViews(id, api) == Ok((|api.playlistItems(PlaylistItemsParams(id)).body.Items()|, Sum(counts)))
  {
    var items := api.playlistItems(PlaylistItemsParams(id)).body.Items();
    var videoIds := seq(|items|, i requires 0 <= i < |items| => items[i].videoId);
    assert videoIds == VideoIdsOf(items);
    TotalViewsIsSum(api.videos(VideosParams(videoIds)).body.Items(), counts);
  }

  function VideoIdsOf(items: seq<PlaylistItemResource>): seq<string> {
    seq(|items|, i requires 0 <= i < |items| => items[i].videoId)
  }

  /** The block has exactly four lines, which read back as the title of the first playlist
      returned, the requested id, and the two numbers. */
  lemma BlockReadsBack(title: string, id: string, itemCount: nat, totalViews: nat)
    requires SingleLine(title) && SingleLine(id)
    ensures |Split(RenderCard(MetricsCard(title, id, itemCount, totalViews), PlaylistMetricLabels), '\n')| == 4
    ensures ParseCard(RenderCard(MetricsCard(title, id, itemCount, totalViews), PlaylistMetricLabels), PlaylistMetricLabels)
              == Some(MetricsCard(title, id, itemCount, totalViews))
    ensures ParseDecimal(MetricsCard(title, id, itemCount, totalViews).values[1]) == Some(itemCount)
    ensures ParseDecimal(MetricsCard(title, id, itemCount, totalViews).values[2]) == Some(totalViews)
  {
    var c := MetricsCard(title, id, itemCount, totalViews);
    assert forall i :: 0 <= i < |PlaylistMetricLabels| ==> SingleLine(PlaylistMetricLabels[i]);
    assert SingleLine(NatToString(itemCount)) && SingleLine(NatToString(totalViews));
    assert forall i :: 0 <= i < |c.values| ==> SingleLine(c.values[i]);
    CardRoundTrip(c, PlaylistMetricLabels);
    ParseNatToString(itemCount);
    ParseNatToString(totalViews);
  }

  /** A known, non-empty playlist whose counts all read is answered with one block: the first
      playlist's title, the requested id, the number of items and the sum of their view counts. */
  lemma Answer(env: Environment, id: string, api: PlaylistBackend, counts: seq<nat>)
    requires id != "" && GetYouTubeClient(env).Ok?
    requires api.playlists(PlaylistParams(id)).Response? && |api.playlists(PlaylistParams(id)).body.Items()| > 0
    requires api.playlistItems(PlaylistItemsParams(id)).Response?
    requires |api.playlistItems(PlaylistItemsParams(id)).body.Items()| > 0
    requires api.videos(VideosParams(VideoIdsOf(api.playlistItems(PlaylistItemsParams(id)).body.Items()))).Response?
    requires ReadsAs(api.videos(VideosParams(VideoIdsOf(api.playlistItems(PlaylistItemsParams(id)).body.Items()))).body.Items(), counts)
    requires Printable(|api.playlistItems(PlaylistItemsParams(id)).body.Items()|) && Printable(Sum(counts))
    ensures PlaylistMetricsTool(env, Some(id), api)
              == Ok([RenderCard(MetricsCard(api.playlists(PlaylistParams(id)).body.Items()[0].title, id,
                                            |api.playlistItems(PlaylistItemsParams(id)).body.Items()|, Sum(counts)),
                                PlaylistMetricLabels)])
  {
    var items := api.playlistItems(PlaylistItemsParams(id)).body.Items();
    TotalViewsIsSum(api.videos(VideosParams(VideoIdsOf(items))).body.Items(), counts);
    AnswerFromTotal(env, id, api, Sum(counts));
  }

  lemma AnswerFromTotal(env: Environment, id: string, api: PlaylistBackend, total: nat)
    requires id != "" && GetYouTubeClient(env).Ok?
    requires api.playlists(PlaylistParams(id)).Response? && |api.playlists(PlaylistParams(id)).body.Items()| > 0
    requires api.playlistItems(PlaylistItemsParams(id)).Response?
    requires |api.playlistItems(PlaylistItemsParams(id)).body.Items()| > 0
    requires api.videos(VideosParams(VideoIdsOf(api.playlistItems(PlaylistItemsParams(id)).body.Items()))).Response?
    requires TotalViews(api.videos(VideosParams(VideoIdsOf(api.playlistItems(PlaylistItemsParams(id)).body.Items()))).body.Items())
               == Ok(total)
    requires Printable(|api.playlistItems(PlaylistItemsParams(id)).body.Items()|) && Printable(total)
    ensures PlaylistMetricsTool(env, Some(id), api)
              == Ok([RenderCard(MetricsCard(api.playlists(PlaylistParams(id)).body.Items()[0].title, id,
                                            |api.playlistItems(PlaylistItemsParams(id)).body.Items()|, total),
                                PlaylistMetricLabels)])
  {
    CountsFromTotal(id, api, total);
    FoundAnswer(env, id, api, |api.playlistItems(PlaylistItemsParams(id)).body.Items()|, total);
  }

  lemma CountsFromTotal(id: string, api: PlaylistBackend, total: nat)
    requires api.playlistItems(PlaylistItemsParams(id)).Response?
    requires |api.playlistItems(PlaylistItemsParams(id)).body.Items()| > 0
    requires api.videos(VideosParams(VideoIdsOf(api.playlistItems(PlaylistItemsParams(id)).body.Items()))).Response?
    requires TotalViews(api.videos(VideosParams(VideoIdsOf(api.playlistItems(PlaylistItemsParams(id)).body.Items()))).body.Items())
               == Ok(total)
    ensures CountAndViews(id, api) == Ok((|api.playlistItems(PlaylistItemsParams(id)).body.Items()|, total))
  {
    var items := api.playlistItems(PlaylistItemsParams(id)).body.Items();
    assert seq(|items|, i requires 0 <= i < |items| => items[i].videoId) == VideoIdsOf(items);
  }

  lemma FoundAnswer(env: Environment, id: string, api: PlaylistBackend, itemCount: nat, totalViews: nat)
    requires id != "" && GetYouTubeClient(env).Ok?
    requires api.playlists(PlaylistParams(id)).Response? && |api.playlists(PlaylistParams(id)).body.Items()| > 0
    requires CountAndViews(id, api) == Ok((itemCount, totalViews))
    requires Printable(itemCount) && Printable(totalViews)
    ensures PlaylistMetricsTool(env, Some(id), api)
              == Ok([RenderCard(MetricsCard(api.playlists(PlaylistParams(id)).body.Items()[0].title, id,
                                            itemCount, totalViews), PlaylistMetricLabels)])
  {
  }

  /** A total past the digit cap cannot be printed: `str` raises inside the `try`, and the
      handler reports it as an unexpected error naming the playlist. */
  lemma TotalPastDigitCap(env: Environment, id: string, api: PlaylistBackend, itemCount: nat, totalViews: nat)
    requires id != "" && GetYouTubeClient(env).Ok?
    requires api.playlists(PlaylistParams(id)).Response? && |api.playlists(PlaylistParams(id)).body.Items()| > 0
    requires CountAndViews(id, api) == Ok((itemCount, totalViews))
    requires !Printable(totalViews)
    ensures PlaylistMetricsTool(env, Some(id), api) == Err(Wrap(PlaylistId(id), StrDigitLimit))
    ensures UnexpectedPrefix + SubjectText(PlaylistId(id)) + ": " <= PlaylistMetricsTool(env, Some(id), api).error.message
    ensures EndsWith(PlaylistMetricsTool(env, Some(id), api).error.message, DigitCapAdvice)
  {
    CapErrorAdvises(PlaylistId(id), StrDigitLimit);
  }

  /** A known playlist without items is answered with a block showing 0 items and 0 views. */
  lemma EmptyPlaylistAnswer(env: Environment, id: string, api: PlaylistBackend)
    requires id != "" && GetYouTubeClient(env).Ok?
    requires api.playlists(PlaylistParams(id)).Response? && |api.playlists(PlaylistParams(id)).body.Items()| > 0
    requires api.playlistItems(PlaylistItemsParams(id)).Response?
    requires api.playlistItems(PlaylistItemsParams(id)).body.Items() == []
    ensures PlaylistMetricsTool(env, Some(id), api)
              == Ok([RenderCard(MetricsCard(api.playlists(PlaylistParams(id)).body.Items()[0].title, id, 0, 0),
                                PlaylistMetricLabels)])
  {
    EmptyPlaylistSkipsVideos(id, api, api.videos);
    FoundAnswer(env, id, api, 0, 0);
  }

  /** The block is the handler's f-string, whatever the title and id hold:
      `**{title}**\nPlaylist ID: {id}\nItems: {count}\nTotal Views: {total}`. */
  lemma BlockSpelled(title: string, id: string, itemCount: nat, totalViews: nat)
    ensures RenderCard(MetricsCard(title, id, itemCount, totalViews), PlaylistMetricLabels)
              == "**" + title + "**\nPlaylist ID: " + id + "\nItems: " + NatToString(itemCount)
                 + "\nTotal Views: " + NatToString(totalViews)
  {
    var c := MetricsCard(title, id, itemCount, totalViews);
    SpellThree(c.title, PlaylistMetricLabels, c.values);
    LabelsSpelled(title, id, NatToString(itemCount), NatToString(totalViews));
  }

  lemma LabelsSpelled(title: string, id: string, items: string, views: string)
    ensures "**" + title + "**" + "\n" + PlaylistMetricLabels[0] + id + "\n" + PlaylistMetricLabels[1] + items
              + "\n" + PlaylistMetricLabels[2] + views
            == "**" + title + "**\nPlaylist ID: " + id + "\nItems: " + items + "\nTotal Views: " + views
  {
    assert PlaylistMetricLabels[0] == "Playlist ID: " && PlaylistMetricLabels[1] == "Items: ";
    assert PlaylistMetricLabels[2] == "Total Views: ";
    assert "**" + "\n" == "**\n" && "**\n" + "Playlist ID: " == "**\nPlaylist ID: ";
    assert "\n" + "Items: " == "\nItems: " && "\n" + "Total Views: " == "\nTotal Views: ";
    var t := "**" + title;
    Regroup(t, "**", "\n");
    Regroup(t, "**\n", "Playlist ID: ");
    var p := t + "**\nPlaylist ID: " + id;
    Regroup(p, "\n", "Items: ");
    var n := p + "\nItems: " + items;
    Regroup(n, "\n", "Total Views: ");
  }

  /** The title comes from the first playlist returned; later ones are ignored. */
  lemma TitleFromFirstPlaylist(id: string, api: PlaylistBackend, other: PlaylistBackend)
    requires id != ""
    requires api.playlists(PlaylistParams(id)).Response? && other.playlists(PlaylistParams(id)).Response?
    requires |api.playlists(PlaylistParams(id)).body.Items()| > 0 && |other.playlists(PlaylistParams(id)).body.Items()| > 0
    requires api.playlists(PlaylistParams(id)).body.Items()[0] == other.playlists(PlaylistParams(id)).body.Items()[0]
    requires api.playlistItems == other.playlistItems && api.videos == other.videos
    ensures LookUpPlaylist(id, api) == LookUpPlaylist(id, other)
  {
  }
}

=== FILE: reshape.dfy ===
/** The reshaping steps the search and metrics handlers share: the result-count clamp, the
    description truncation and the counter defaults. */
module Reshape {
  import opened Wrappers
  import opened Text

  const DefaultMaxResults: int := 25
  const ApiMaxResults: int := 50
  const DescriptionLimit: nat := 200
  const Ellipsis: string := "..."

  /** Python truthiness of an optional string argument: present and non-empty. */
  predicate Truthy(v: Option<string>) {
    v.Some? && v.value != ""
  }

  function Min(a: int, b: int): int {
    if a <= b then a else b
  }

  /** `min(arguments.get("max_results", 25), 50)`: capped at 50 from above, not bounded below. */
  function ClampMaxResults(requested: Option<int>): (n: int)
    ensures n <= ApiMaxResults
    ensures n == ApiMaxResults || n == requested.GetOr(DefaultMaxResults)
    ensures requested.GetOr(DefaultMaxResults) <= ApiMaxResults ==> n == requested.GetOr(DefaultMaxResults)
  {
    Min(requested.GetOr(DefaultMaxResults), ApiMaxResults)
  }

  /** Clamping a clamped count changes nothing. */
  lemma ClampIdempotent(requested: Option<int>)
    ensures ClampMaxResults(Some(ClampMaxResults(requested))) == ClampMaxResults(requested)
  {
  }

  /** No lower bound: zero and negative counts are passed on unchanged; absent means 25. */
  lemma ClampHasNoLowerBound(k: int)
    requires k <= ApiMaxResults
    ensures ClampMaxResults(Some(k)) == k
    ensures ClampMaxResults(None) == DefaultMaxResults
  {
  }

  /** `desc[:200] + ('...' if desc else '')`. */
  function TruncateDescription(desc: string): (r: string)
    ensures r == "" <==> desc == ""
    ensures desc != "" ==> EndsWith(r, Ellipsis) && |r| == Min(|desc|, DescriptionLimit) + |Ellipsis|
    ensures desc != "" ==> r[..|r| - |Ellipsis|] <= desc
  {
    desc[..Min(|desc|, DescriptionLimit)] + (if desc != "" then Ellipsis else "")
  }

  /** Truncation adds no line break: a description free of one stays free of one. */
  lemma TruncateKeepsLineBreaksOut(desc: string)
    requires '\n' !in desc
    ensures '\n' !in TruncateDescription(desc)
  {
    var kept := desc[..Min(|desc|, DescriptionLimit)];
    assert forall c :: c in kept ==> c in desc;
  }

  /** The ellipsis is appended even when nothing was cut off. */
  lemma ShortDescriptionStillGetsEllipsis(desc: string)
    requires 0 < |desc| <= DescriptionLimit
    ensures TruncateDescription(desc) == desc + Ellipsis
  {
  }

  /** What a reader can recover from a displayed description: drop the marker if any. */
  function Untruncate(shown: string): string {
    if |shown| >= |Ellipsis| then shown[..|shown| - |Ellipsis|] else shown
  }

  /** Descriptions of at most 200 characters survive truncation intact; longer ones keep exactly
      their first 200 characters. */
  lemma UntruncateTruncate(desc: string)
    ensures |desc| <= DescriptionLimit ==> Untruncate(TruncateDescription(desc)) == desc
    ensures |desc| > DescriptionLimit ==> Untruncate(TruncateDescription(desc)) == desc[..DescriptionLimit]
  {
  }

  /** `statistics.get(key, '0')`. */
  function Counter(statistics: map<string, string>, key: string): (v: string)
    ensures key in statistics ==> v == statistics[key]
    ensures key !in statistics ==> v == "0"
  {
    if key in statistics then statistics[key] else "0"
  }
}

=== FILE: search_channels.dfy ===
/** The `search_channels` handler: request construction, the single aggregated
    "Found N channels" text, the empty result and the error mapping. This handler checks
    nothing: it reads only `query` and `max_results`. */
module SearchChannels {
  import opened Wrappers
  import opened Errors
  import opened Utils
  import opened Models
  import opened Reshape
  import opened Cards
  import opened Text
  import opened YouTubeApi

  const NoChannelsFound: string := "No channels found."
  const ChannelNoun: string := "channels"
  const ChannelLabels: seq<string> := ["Channel ID: ", "Created: ", "Description: "]

  /** The keyword arguments of `youtube.search().list(...)`: always exactly these four, so a
      `published_after` argument is never forwarded. */
  function SearchParams(args: SearchArgs): (r: Params)
    ensures r.Keys == {"part", "q", "type", "maxResults"}
    ensures "publishedAfter" !in r
    ensures r["part"] == Str("snippet") && r["type"] == Str("channel")
    ensures r["q"] == Str(args.query.GetOr(""))
    ensures r["maxResults"] == Number(ClampMaxResults(args.maxResults))
  {
    map[
      "part" := Str("snippet"),
      "q" := Str(args.query.GetOr("")),
      "type" := Str("channel"),
      "maxResults" := Number(ClampMaxResults(args.maxResults))]
  }

  /** `channel_info`, as printed: title, then id, creation date, truncated description. */
  function ChannelCard(item: SearchResult): Card {
    Card(item.title, [item.id, item.publishedAt, TruncateDescription(item.description)])
  }

  function ChannelCards(items: seq<SearchResult>): (cards: seq<Card>)
    ensures |cards| == |items|
    ensures forall i :: 0 <= i < |cards| ==> |cards[i].values| == |ChannelLabels|
  {
    seq(|items|, i requires 0 <= i < |items| => ChannelCard(items[i]))
  }

  function FormatChannels(items: seq<SearchResult>): (texts: seq<string>)
    ensures |texts| == 1
    ensures |items| == 0 <==> texts == [NoChannelsFound]
  {
    if |items| == 0 then [NoChannelsFound]
    else
      var text := RenderListing(ChannelNoun, ChannelCards(items), ChannelLabels);
      assert text[0] == 'F';
      [text]
  }

  /** `search_channels(arguments)`. */
  function SearchChannelsTool(env: Environment, args: SearchArgs, search: Endpoint<SearchResult>)
    : (r: Result<seq<string>, YouTubeApiError>)
    ensures GetYouTubeClient(env).Err? ==> r == Err(MissingApiKey)
    ensures r.Ok? <==> GetYouTubeClient(env).Ok? && search(SearchParams(args)).Response?
    ensures r.Ok? ==> |r.value| == 1
    ensures r.Err? && GetYouTubeClient(env).Ok? ==> NamesSubject(r.error, Query(args.query.GetOr("")))
  {
    var _ :- GetYouTubeClient(env);
    match Execute(search(SearchParams(args)))
    case Err(c) => Err(Wrap(Query(args.query.GetOr("")), c))
    case Ok(body) => Ok(FormatChannels(body.Items()))
  }

  // ---------------------------------------------------------------- properties

  lemma MissingKeyFirst(env: Environment, args: SearchArgs, search: Endpoint<SearchResult>)
    requires GetYouTubeClient(env).Err?
    ensures SearchChannelsTool(env, args, search) == Err(MissingApiKey)
  {
  }

  /** The request depends on `query` and `max_results` only: an empty query is sent as is, and
      `order`, `duration` and `published_after` change nothing. */
  lemma OnlyQueryAndCountSent(a: SearchArgs, b: SearchArgs)
    requires a.query.GetOr("") == b.query.GetOr("") && a.maxResults == b.maxResults
    ensures SearchParams(a) == SearchParams(b)
  {
  }

  lemma NoResultsMessage(env: Environment, args: SearchArgs, search: Endpoint<SearchResult>)
    requires GetYouTubeClient(env).Ok?
    requires search(SearchParams(args)).Response?
    requires search(SearchParams(args)).body.Items() == []
    ensures SearchChannelsTool(env, args, search) == Ok([NoChannelsFound])
  {
  }

  /** Failures of the endpoint are wrapped with the query: `HttpError` as a YouTube API error,
      anything else as an unexpected error. */
  lemma FailuresWrapped(env: Environment, args: SearchArgs, search: Endpoint<SearchResult>)
    requires GetYouTubeClient(env).Ok? && !search(SearchParams(args)).Response?
    ensures SearchChannelsTool(env, args, search).Err?
    ensures search(SearchParams(args)).HttpError? ==>
              ApiErrorPrefix + SubjectText(Query(args.query.GetOr(""))) + ": " <= SearchChannelsTool(env, args, search).error.message
    ensures search(SearchParams(args)).Failure? ==>
              UnexpectedPrefix + SubjectText(Query(args.query.GetOr(""))) + ": " <= SearchChannelsTool(env, args, search).error.message
  {
  }

  /** A search that gets a response answers with the listing of that response's items,
      nothing else. */
  lemma Answer(env: Environment, args: SearchArgs, search: Endpoint<SearchResult>)
    requires GetYouTubeClient(env).Ok? && search(SearchParams(args)).Response?
    ensures SearchChannelsTool(env, args, search) == Ok(FormatChannels(search(SearchParams(args)).body.Items()))
  {
  }

  /** The single text is the handler's f-string, whatever the fields hold: the header
      `Found {n} channels:`, a blank line, then one block per channel joined by blank lines. */
  lemma ListingSpelled(items: seq<SearchResult>)
    requires |items| > 0
    ensures FormatChannels(items)
              == ["Found " + NatToString(|items|) + " channels:\n\n"
                  + Join("\n\n", seq(|items|, i requires 0 <= i < |items| =>
                      "**" + items[i].title + "**\nChannel ID: " + items[i].id + "\nCreated: " + items[i].publishedAt
                      + "\nDescription: " + TruncateDescription(items[i].description)))]
  {
    BlocksSpelled(items);
    HeaderSpelled(|items|);
    assert FormatChannels(items)
             == [Header(|items|, ChannelNoun) + "\n\n" + Join("\n\n", RenderCards(ChannelCards(items), ChannelLabels))];
  }

  lemma BlocksSpelled(items: seq<SearchResult>)
    ensures RenderCards(ChannelCards(items), ChannelLabels)
              == seq(|items|, i requires 0 <= i < |items| =>
                   "**" + items[i].title + "**\nChannel ID: " + items[i].id + "\nCreated: " + items[i].publishedAt
                   + "\nDescription: " + TruncateDescription(items[i].description))
  {
    var blocks := seq(|items|, i requires 0 <= i < |items| =>
                      "**" + items[i].title + "**\nChannel ID: " + items[i].id + "\nCreated: " + items[i].publishedAt
                      + "\nDescription: " + TruncateDescription(items[i].description));
    var rendered := RenderCards(ChannelCards(items), ChannelLabels);
    forall i | 0 <= i < |items|
      ensures rendered[i] == blocks[i]
    {
      BlockSpelled(items[i]);
    }
  }

  lemma HeaderSpelled(n: nat)
    ensures Header(n, ChannelNoun) + "\n\n" == "Found " + NatToString(n) + " channels:\n\n"
  {
    var found := "Found " + NatToString(n);
    assert " " + "channels" + ":" + "\n\n" == " channels:\n\n";
    Regroup(found, " ", "channels");
    Regroup(found, " channels", ":");
    Regroup(found, " channels:", "\n\n");
  }

  lemma BlockSpelled(item: SearchResult)
    ensures RenderCard(ChannelCard(item), ChannelLabels)
              == "**" + item.title + "**\nChannel ID: " + item.id + "\nCreated: " + item.publishedAt
                 + "\nDescription: " + TruncateDescription(item.description)
  {
    var values := [item.id, item.publishedAt, TruncateDescription(item.description)];
    SpellThree(item.title, ChannelLabels, values);
    LabelsSpelled(item.title, item.id, item.publishedAt, TruncateDescription(item.description));
  }

  lemma LabelsSpelled(title: string, id: string, date: string, description: string)
    ensures "**" + title + "**" + "\n" + ChannelLabels[0] + id + "\n" + ChannelLabels[1] + date
              + "\n" + ChannelLabels[2] + description
            == "**" + title + "**\nChannel ID: " + id + "\nCreated: " + date + "\nDescription: " + description
  {
    assert ChannelLabels[0] == "Channel ID: " && ChannelLabels[1] == "Created: " && ChannelLabels[2] == "Description: ";
    assert "**" + "\n" == "**\n" && "**\n" + "Channel ID: " == "**\nChannel ID: ";
    assert "\n" + "Created: " == "\nCreated: " && "\n" + "Description: " == "\nDescription: ";
    var t := "**" + title;
    Regroup(t, "**", "\n");
    Regroup(t, "**\n", "Channel ID: ");
    var i := t + "**\nChannel ID: " + id;
    Regroup(i, "\n", "Created: ");
    var d := i + "\nCreated: " + date;
    Regroup(d, "\n", "Description: ");
  }

  predicate SingleLineItem(item: SearchResult) {
    SingleLine(item.id) && SingleLine(item.title) && SingleLine(item.description) && SingleLine(item.publishedAt)
  }

  /** The listing reads back as one record per channel, in response order, and its header count
      is the number of channels. */
  lemma ListingReadsBack(items: seq<SearchResult>)
    requires |items| > 0
    requires forall i :: 0 <= i < |items| ==> SingleLineItem(items[i])
    ensures ParseListing(FormatChannels(items)[0], ChannelNoun, ChannelLabels) == Some(ChannelCards(items))
    ensures forall i :: 0 <= i < |items| ==>
              ChannelCards(items)[i]
                == Card(items[i].title, [items[i].id, items[i].publishedAt, TruncateDescription(items[i].description)])
  {
    var cards := ChannelCards(items);
    forall i | 0 <= i < |cards|
      ensures FitsLayout(cards[i], ChannelLabels)
    {
      CardFits(items[i]);
    }
    ListingRoundTrip(ChannelNoun, cards, ChannelLabels);
  }

  lemma CardFits(item: SearchResult)
    requires SingleLineItem(item)
    ensures FitsLayout(ChannelCard(item), ChannelLabels)
  {
    TruncateKeepsLineBreaksOut(item.description);
    LabelsSingle();
    assert ChannelCard(item).values == [item.id, item.publishedAt, TruncateDescription(item.description)];
  }

  lemma LabelsSingle()
    ensures forall i :: 0 <= i < |ChannelLabels| ==> SingleLine(ChannelLabels[i])
  {
  }
}

=== FILE: search_playlists.dfy ===
/** The `search_playlists` handler: its own inline timestamp check, request construction, the
    single aggregated "Found N playlists" text, the empty result and the error mapping. */
module SearchPlaylists {
  import opened Wrappers
  import opened Errors
  import opened Utils
  import opened Timestamp
  import opened Models
  import opened Reshape
  import opened Cards
  import opened Text
  import opened YouTubeApi

  const NoPlaylistsFound: string := "No playlists found."
  const PlaylistNoun: string := "playlists"
  const PlaylistLabels: seq<string> := ["Playlist ID: ", "Channel: ", "Created: ", "Description: "]

  /** The keyword arguments of `youtube.search().list(...)`, or the `ValueError` of the inline
      timestamp check. No order or duration is sent; `publishedAfter` exactly when non-empty. */
  function SearchParams(args: SearchArgs): (r: Result<Params, Cause>)
    ensures r.Ok? <==> AcceptsPublishedAfter(args.publishedAfter)
    ensures r.Err? ==> r.error == InvalidPublishedAfter(args.publishedAfter.value)
    ensures r.Ok? ==>
              && r.value.Keys ==
                   {"part", "q", "type", "maxResults"}
                   + (if Truthy(args.publishedAfter) then {"publishedAfter"} else {})
              && r.value["part"] == Str("snippet") && r.value["type"] == Str("playlist")
              && r.value["q"] == Str(args.query.GetOr(""))
              && r.value["maxResults"] == Number(ClampMaxResults(args.maxResults))
    ensures r.Ok? && "publishedAfter" in r.value ==>
              r.value["publishedAfter"] == Str(args.publishedAfter.value) && Matches(args.publishedAfter.value)
  {
    if Truthy(args.publishedAfter) && !Matches(args.publishedAfter.value) then
      Err(InvalidPublishedAfter(args.publishedAfter.value))
    else
      var base := map[
        "part" := Str("snippet"),
        "q" := Str(args.query.GetOr("")),
        "type" := Str("playlist"),
        "maxResults" := Number(ClampMaxResults(args.maxResults))];
      Ok(if Truthy(args.publishedAfter) then base["publishedAfter" := Str(args.publishedAfter.value)] else base)
  }

  /** `playlist_info`, as printed: title, then id, channel, creation date, truncated description. */
  function PlaylistCard(item: SearchResult): Card {
    Card(item.title, [item.id, item.channelTitle, item.publishedAt, TruncateDescription(item.description)])
  }

  function PlaylistCards(items: seq<SearchResult>): (cards: seq<Card>)
    ensures |cards| == |items|
    ensures forall i :: 0 <= i < |cards| ==> |cards[i].values| == |PlaylistLabels|
  {
    seq(|items|, i requires 0 <= i < |items| => PlaylistCard(items[i]))
  }

  /** A single `TextContent`: the fixed not-found text, or the listing of all results. */
  function FormatPlaylists(items: seq<SearchResult>): (texts: seq<string>)
    ensures |texts| == 1
    ensures |items| == 0 <==> texts == [NoPlaylistsFound]
  {
    if |items| == 0 then [NoPlaylistsFound]
    else
      var text := RenderListing(PlaylistNoun, PlaylistCards(items), PlaylistLabels);
      assert text[0] == 'F';
      [text]
  }

  function FetchPlaylists(args: SearchArgs, search: Endpoint<SearchResult>): Result<seq<SearchResult>, Cause> {
    var params :- SearchParams(args);
    var body :- Execute(search(params));
    Ok(body.Items())
  }

  /** `search_playlists(arguments)`. */
  function SearchPlaylistsTool(env: Environment, args: SearchArgs, search: Endpoint<SearchResult>)
    : (r: Result<seq<string>, YouTubeApiError>)
    ensures GetYouTubeClient(env).Err? ==> r == Err(MissingApiKey)
    ensures r.Ok? <==> GetYouTubeClient(env).Ok? && FetchPlaylists(args, search).Ok?
    ensures r.Ok? ==> |r.value| == 1
    ensures r.Err? && GetYouTubeClient(env).Ok? ==> NamesSubject(r.error, Query(args.query.GetOr("")))
  {
    var _ :- GetYouTubeClient(env);
    match FetchPlaylists(args, search)
    case Err(c) => Err(Wrap(Query(args.query.GetOr("")), c))
    case Ok(items) => Ok(FormatPlaylists(items))
  }

  // ---------------------------------------------------------------- properties

  lemma MissingKeyFirst(env: Environment, args: SearchArgs, search: Endpoint<SearchResult>)
    requires GetYouTubeClient(env).Err?
    ensures SearchPlaylistsTool(env, args, search) == Err(MissingApiKey)
  {
  }

  /** A malformed `published_after` is rejected before the endpoint is used, as an
      "Unexpected error" naming the query. */
  lemma MalformedTimestampNeverSent(env: Environment, args: SearchArgs, s1: Endpoint<SearchResult>, s2: Endpoint<SearchResult>)
    requires GetYouTubeClient(env).Ok? && !AcceptsPublishedAfter(args.publishedAfter)
    ensures SearchPlaylistsTool(env, args, s1) == SearchPlaylistsTool(env, args, s2)
    ensures SearchPlaylistsTool(env, args, s1).Err?
    ensures UnexpectedPrefix + SubjectText(Query(args.query.GetOr(""))) + ": " <= SearchPlaylistsTool(env, args, s1).error.message
  {
  }

  lemma NoResultsMessage(env: Environment, args: SearchArgs, search: Endpoint<SearchResult>)
    requires GetYouTubeClient(env).Ok? && SearchParams(args).Ok?
    requires search(SearchParams(args).value).Response?
    requires search(SearchParams(args).value).body.Items() == []
    ensures SearchPlaylistsTool(env, args, search) == Ok([NoPlaylistsFound])
  {
  }

  /** `SearchPlaylistsInput` is stricter than the handler's own check: whatever the model accepts,
      the handler sends, with the model's query and count. An empty query shows the converse fails. */
  lemma ListModelStricterThanHandlerCheck(args: SearchArgs)
    requires ValidateSearchListInput(args).Ok?
    ensures SearchParams(args).Ok?
    ensures SearchParams(args).value["q"] == Str(ValidateSearchListInput(args).value.query)
    ensures SearchParams(args).value["maxResults"] == Number(ValidateSearchListInput(args).value.maxResults)
    ensures var empty := args.(query := Some(""));
            SearchParams(empty).Ok? && ValidateSearchListInput(empty).Err?
  {
  }

  /** A search that reaches the endpoint and gets a response answers with the listing of that
      response's items, nothing else. */
  lemma Answer(env: Environment, args: SearchArgs, search: Endpoint<SearchResult>)
    requires GetYouTubeClient(env).Ok? && SearchParams(args).Ok?
    requires search(SearchParams(args).value).Response?
    ensures SearchPlaylistsTool(env, args, search) == Ok(FormatPlaylists(search(SearchParams(args).value).body.Items()))
  {
  }

  /** The single text is the handler's f-string, whatever the fields hold: the header
      `Found {n} playlists:`, a blank line, then one block per result joined by blank lines. */
  lemma ListingSpelled(items: seq<SearchResult>)
    requires |items| > 0
    ensures FormatPlaylists(items)
              == ["Found " + NatToString(|items|) + " playlists:\n\n"
                  + Join("\n\n", seq(|items|, i requires 0 <= i < |items| =>
                      "**" + items[i].title + "**\nPlaylist ID: " + items[i].id + "\nChannel: " + items[i].channelTitle
                      + "\nCreated: " + items[i].publishedAt + "\nDescription: " + TruncateDescription(items[i].description)))]
  {
    BlocksSpelled(items);
    HeaderSpelled(|items|);
    assert FormatPlaylists(items)
             == [Header(|items|, PlaylistNoun) + "\n\n" + Join("\n\n", RenderCards(PlaylistCards(items), PlaylistLabels))];
  }

  lemma BlocksSpelled(items: seq<SearchResult>)
    ensures RenderCards(PlaylistCards(items), PlaylistLabels)
              == seq(|items|, i requires 0 <= i < |items| =>
                   "**" + items[i].title + "**\nPlaylist ID: " + items[i].id + "\nChannel: " + items[i].channelTitle
                   + "\nCreated: " + items[i].publishedAt + "\nDescription: " + TruncateDescription(items[i].description))
  {
    var blocks := seq(|items|, i requires 0 <= i < |items| =>
                      "**" + items[i].title + "**\nPlaylist ID: " + items[i].id + "\nChannel: " + items[i].channelTitle
                      + "\nCreated: " + items[i].publishedAt + "\nDescription: " + TruncateDescription(items[i].description));
    var rendered := RenderCards(PlaylistCards(items), PlaylistLabels);
    forall i | 0 <= i < |items|
      ensures rendered[i] == blocks[i]
    {
      BlockSpelled(items[i]);
    }
  }

  lemma HeaderSpelled(n: nat)
    ensures Header(n, PlaylistNoun) + "\n\n" == "Found " + NatToString(n) + " playlists:\n\n"
  {
    var found := "Found " + NatToString(n);
    assert " " + "playlists" + ":" + "\n\n" == " playlists:\n\n";
    Regroup(found, " ", "playlists");
    Regroup(found, " playlists", ":");
    Regroup(found, " playlists:", "\n\n");
  }

  lemma BlockSpelled(item: SearchResult)
    ensures RenderCard(PlaylistCard(item), PlaylistLabels)
              == "**" + item.title + "**\nPlaylist ID: " + item.id + "\nChannel: " + item.channelTitle
                 + "\nCreated: " + item.publishedAt + "\nDescription: " + TruncateDescription(item.description)
  {
    var values := [item.id, item.channelTitle, item.publishedAt, TruncateDescription(item.description)];
    SpellFour(item.title, PlaylistLabels, values);
    LabelsSpelled(item.title, item.id, item.channelTitle, item.publishedAt, TruncateDescription(item.description));
  }

  lemma LabelsSpelled(title: string, id: string, channel: string, date: string, description: string)
    ensures "**" + title + "**" + "\n" + PlaylistLabels[0] + id + "\n" + PlaylistLabels[1] + channel
              + "\n" + PlaylistLabels[2] + date + "\n" + PlaylistLabels[3] + description
            == "**" + title + "**\nPlaylist ID: " + id + "\nChannel: " + channel
               + "\nCreated: " + date + "\nDescription: " + description
  {
    assert PlaylistLabels[0] == "Playlist ID: " && PlaylistLabels[1] == "Channel: ";
    assert PlaylistLabels[2] == "Created: " && PlaylistLabels[3] == "Description: ";
    assert "**" + "\n" == "**\n" && "**\n" + "Playlist ID: " == "**\nPlaylist ID: ";
    assert "\n" + "Channel: " == "\nChannel: " && "\n" + "Created: " == "\nCreated: ";
    assert "\n" + "Description: " == "\nDescription: ";
    var t := "**" + title;
    Regroup(t, "**", "\n");
    Regroup(t, "**\n", "Playlist ID: ");
    var i := t + "**\nPlaylist ID: " + id;
    Regroup(i, "\n", "Channel: ");
    var c := i + "\nChannel: " + channel;
    Regroup(c, "\n", "Created: ");
    var d := c + "\nCreated: " + date;
    Regroup(d, "\n", "Description: ");
  }

  predicate SingleLineItem(item: SearchResult) {
    SingleLine(item.id) && SingleLine(item.title) && SingleLine(item.description)
    && SingleLine(item.channelTitle) && SingleLine(item.publishedAt)
  }

  /** The listing reads back as one record per result, in response order, and its header count
      is the number of results. */
  lemma ListingReadsBack(items: seq<SearchResult>)
    requires |items| > 0
    requires forall i :: 0 <= i < |items| ==> SingleLineItem(items[i])
    ensures ParseListing(FormatPlaylists(items)[0], PlaylistNoun, PlaylistLabels) == Some(PlaylistCards(items))
    ensures forall i :: 0 <= i < |items| ==>
              PlaylistCards(items)[i]
                == Card(items[i].title, [items[i].id, items[i].channelTitle, items[i].publishedAt,
                                         TruncateDescription(items[i].description)])
  {
    var cards := PlaylistCards(items);
    forall i | 0 <= i < |cards|
      ensures FitsLayout(cards[i], PlaylistLabels)
    {
      CardFits(items[i]);
    }
    ListingRoundTrip(PlaylistNoun, cards, PlaylistLabels);
  }

  lemma CardFits(item: SearchResult)
    requires SingleLineItem(item)
    ensures FitsLayout(PlaylistCard(item), PlaylistLabels)
  {
    TruncateKeepsLineBreaksOut(item.description);
    LabelsSingle();
    assert PlaylistCard(item).values == [item.id, item.channelTitle, item.publishedAt, TruncateDescription(item.description)];
  }

  lemma LabelsSingle()
    ensures forall i :: 0 <= i < |PlaylistLabels| ==> SingleLine(PlaylistLabels[i])
  {
  }
}

=== FILE: search_videos.dfy ===
/** The `search_videos` handler: request construction, one text block per result, the empty
    result and the error mapping. */
module SearchVideos {
  import opened Wrappers
  import opened Errors
  import opened Utils
  import opened Timestamp
  import opened Models
  import opened Reshape
  import opened Cards
  import opened Text
  import opened YouTubeApi

  const NoVideosFound: string := "No videos found."

  /** The labels of the lines after the bold title, in print order. */
  const VideoLabels: seq<string> := ["Channel: ", "Video ID: ", "Published: ", "Description: "]

  /** The handler's defaults: note "medium", not "any", for the duration. */
  function QueryOf(args: SearchArgs): string {
    args.query.GetOr("")
  }

  function OrderOf(args: SearchArgs): string {
    args.order.GetOr(DefaultOrder)
  }

  function DurationOf(args: SearchArgs): string {
    args.duration.GetOr(DefaultDuration)
  }

  /** The keyword arguments of `youtube.search().list(...)`, or the `ValueError` of the
      parameter check. `order` is always sent, `videoDuration` exactly when the duration is not
      "any", `publishedAfter` exactly when it is a non-empty string; nothing else is sent. */
  function SearchParams(args: SearchArgs): (r: Result<Params, Cause>)
    ensures r.Ok? <==> ValidateYouTubeParams(OrderOf(args), DurationOf(args), args.publishedAfter).Ok?
    ensures r.Err? ==> r.error == ValidateYouTubeParams(OrderOf(args), DurationOf(args), args.publishedAfter).error
    ensures r.Ok? ==>
              && r.value.Keys ==
                   {"part", "q", "type", "maxResults", "order"}
                   + (if DurationOf(args) != "any" then {"videoDuration"} else {})
                   + (if Truthy(args.publishedAfter) then {"publishedAfter"} else {})
              && r.value["part"] == Str("snippet") && r.value["type"] == Str("video")
              && r.value["q"] == Str(QueryOf(args))
              && r.value["maxResults"] == Number(ClampMaxResults(args.maxResults))
              && r.value["order"] == Str(OrderOf(args)) && OrderOf(args) in ValidOrders
    ensures r.Ok? && "videoDuration" in r.value ==>
              r.value["videoDuration"] == Str(DurationOf(args)) && DurationOf(args) in {"short", "medium", "long"}
    ensures r.Ok? && "publishedAfter" in r.value ==>
              r.value["publishedAfter"] == Str(args.publishedAfter.value) && Matches(args.publishedAfter.value)
  {
    var order := OrderOf(args);
    var duration := DurationOf(args);
    var _ :- ValidateYouTubeParams(order, duration, args.publishedAfter);
    var base := map[
      "part" := Str("snippet"),
      "q" := Str(QueryOf(args)),
      "type" := Str("video"),
      "maxResults" := Number(ClampMaxResults(args.maxResults)),
      "order" := Str(order)];
    var withDuration := if duration != "any" then base["videoDuration" := Str(duration)] else base;
    Ok(if Truthy(args.publishedAfter) then withDuration["publishedAfter" := Str(args.publishedAfter.value)]
       else withDuration)
  }

  /** `item['snippet']['thumbnails'].get('default', {}).get('url', '')`. */
  function ThumbnailUrl(thumbnails: map<string, map<string, string>>): string {
    if "default" in thumbnails && "url" in thumbnails["default"] then thumbnails["default"]["url"] else ""
  }

  /** `video_info`: the record the handler builds for one result. */
  datatype VideoInfo = VideoInfo(
    videoId: string, title: string, description: string, channelTitle: string,
    publishedAt: string, thumbnailUrl: string)

  function VideoInfoOf(item: SearchResult): VideoInfo {
    VideoInfo(item.id, item.title, TruncateDescription(item.description), item.channelTitle,
              item.publishedAt, ThumbnailUrl(item.thumbnails))
  }

  /** What the text block of one video shows; the thumbnail URL is computed but not printed. */
  function VideoCard(v: VideoInfo): Card {
    Card(v.title, [v.channelTitle, v.videoId, v.publishedAt, v.description])
  }

  /** One `TextContent` per result, in response order, or the fixed not-found text. */
  function FormatVideos(items: seq<SearchResult>): (texts: seq<string>)
    ensures |items| == 0 ==> texts == [NoVideosFound]
    ensures |items| > 0 ==> |texts| == |items|
  {
    if |items| == 0 then [NoVideosFound]
    else seq(|items|, i requires 0 <= i < |items| => RenderCard(VideoCard(VideoInfoOf(items[i])), VideoLabels))
  }

  /** The `try` block up to the response items. */
  function FetchVideos(args: SearchArgs, search: Endpoint<SearchResult>): Result<seq<SearchResult>, Cause> {
    var params :- SearchParams(args);
    var body :- Execute(search(params));
    Ok(body.Items())
  }

  /** `search_videos(arguments)`: the client is obtained first, outside the `try`, so a missing
      key is reported unwrapped; everything raised inside is wrapped with the query. */
  function SearchVideosTool(env: Environment, args: SearchArgs, search: Endpoint<SearchResult>)
    : (r: Result<seq<string>, YouTubeApiError>)
    ensures GetYouTubeClient(env).Err? ==> r == Err(MissingApiKey)
    ensures r.Ok? <==> GetYouTubeClient(env).Ok? && FetchVideos(args, search).Ok?
    ensures r.Ok? ==> |r.value| >= 1
    ensures r.Err? && GetYouTubeClient(env).Ok? ==> NamesSubject(r.error, Query(QueryOf(args)))
  {
    var _ :- GetYouTubeClient(env);
    match FetchVideos(args, search)
    case Err(c) => Err(Wrap(Query(QueryOf(args)), c))
    case Ok(items) => Ok(FormatVideos(items))
  }

  // ---------------------------------------------------------------- properties

  /** Without a key nothing else matters: the configuration error comes back as is. */
  lemma MissingKeyFirst(env: Environment, args: SearchArgs, search: Endpoint<SearchResult>)
    requires GetYouTubeClient(env).Err?
    ensures SearchVideosTool(env, args, search) == Err(MissingApiKey)
  {
  }

  /** Arguments that fail the parameter check are rejected before the search endpoint is used:
      the outcome does not depend on it, and it is an "Unexpected error" naming the query. */
  lemma InvalidArgumentsNeverSent(env: Environment, args: SearchArgs, s1: Endpoint<SearchResult>, s2: Endpoint<SearchResult>)
    requires GetYouTubeClient(env).Ok? && SearchParams(args).Err?
    ensures SearchVideosTool(env, args, s1) == SearchVideosTool(env, args, s2)
    ensures SearchVideosTool(env, args, s1).Err?
    ensures UnexpectedPrefix + SubjectText(Query(QueryOf(args))) + ": " <= SearchVideosTool(env, args, s1).error.message
  {
  }

  /** Without a duration argument the request is filtered to medium-length videos. */
  lemma DefaultDurationFilters(args: SearchArgs)
    requires args.duration.None? && SearchParams(args).Ok?
    ensures SearchParams(args).value["videoDuration"] == Str("medium")
  {
  }

  /** An `HttpError` from the endpoint becomes a "YouTube API error" naming the query. */
  lemma HttpErrorsWrapped(env: Environment, args: SearchArgs, search: Endpoint<SearchResult>)
    requires GetYouTubeClient(env).Ok? && SearchParams(args).Ok?
    requires search(SearchParams(args).value).HttpError?
    ensures SearchVideosTool(env, args, search).Err?
    ensures ApiErrorPrefix + SubjectText(Query(QueryOf(args))) + ": " <= SearchVideosTool(env, args, search).error.message
  {
  }

  /** An empty (or missing) item list gives exactly the not-found text. */
  lemma NoResultsMessage(env: Environment, args: SearchArgs, search: Endpoint<SearchResult>)
    requires GetYouTubeClient(env).Ok? && SearchParams(args).Ok?
    requires search(SearchParams(args).value).Response?
    requires search(SearchParams(args).value).body.Items() == []
    ensures SearchVideosTool(env, args, search) == Ok([NoVideosFound])
  {
  }

  /** A search that reaches the endpoint and gets a response answers with the formatted items of
      that response, nothing else. */
  lemma Answer(env: Environment, args: SearchArgs, search: Endpoint<SearchResult>)
    requires GetYouTubeClient(env).Ok? && SearchParams(args).Ok?
    requires search(SearchParams(args).value).Response?
    ensures SearchVideosTool(env, args, search) == Ok(FormatVideos(search(SearchParams(args).value).body.Items()))
  {
  }

  /** Block `i` is the handler's f-string for result `i`, whatever the fields hold:
      `**{title}**\nChannel: {channel}\nVideo ID: {id}\nPublished: {date}\nDescription: {description}`. */
  lemma BlocksSpelled(items: seq<SearchResult>)
    requires |items| > 0
    ensures |FormatVideos(items)| == |items|
    ensures forall i :: 0 <= i < |items| ==>
              FormatVideos(items)[i]
                == "**" + items[i].title + "**\nChannel: " + items[i].channelTitle + "\nVideo ID: " + items[i].id
                   + "\nPublished: " + items[i].publishedAt + "\nDescription: " + TruncateDescription(items[i].description)
  {
    forall i | 0 <= i < |items|
      ensures FormatVideos(items)[i]
                == "**" + items[i].title + "**\nChannel: " + items[i].channelTitle + "\nVideo ID: " + items[i].id
                   + "\nPublished: " + items[i].publishedAt + "\nDescription: " + TruncateDescription(items[i].description)
    {
      BlockSpelled(items[i]);
    }
  }

  lemma BlockSpelled(item: SearchResult)
    ensures RenderCard(VideoCard(VideoInfoOf(item)), VideoLabels)
              == "**" + item.title + "**\nChannel: " + item.channelTitle + "\nVideo ID: " + item.id
                 + "\nPublished: " + item.publishedAt + "\nDescription: " + TruncateDescription(item.description)
  {
    var values := [item.channelTitle, item.id, item.publishedAt, TruncateDescription(item.description)];
    assert VideoCard(VideoInfoOf(item)) == Card(item.title, values);
    SpellFour(item.title, VideoLabels, values);
    LabelsSpelled(item.title, item.channelTitle, item.id, item.publishedAt, TruncateDescription(item.description));
  }

  lemma LabelsSpelled(title: string, channel: string, id: string, date: string, description: string)
    ensures "**" + title + "**" + "\n" + VideoLabels[0] + channel + "\n" + VideoLabels[1] + id
              + "\n" + VideoLabels[2] + date + "\n" + VideoLabels[3] + description
            == "**" + title + "**\nChannel: " + channel + "\nVideo ID: " + id
               + "\nPublished: " + date + "\nDescription: " + description
  {
    assert VideoLabels[0] == "Channel: " && VideoLabels[1] == "Video ID: ";
    assert VideoLabels[2] == "Published: " && VideoLabels[3] == "Description: ";
    assert "**" + "\n" == "**\n" && "**\n" + "Channel: " == "**\nChannel: ";
    assert "\n" + "Video ID: " == "\nVideo ID: " && "\n" + "Published: " == "\nPublished: ";
    assert "\n" + "Description: " == "\nDescription: ";
    var t := "**" + title;
    Regroup(t, "**", "\n");
    Regroup(t, "**\n", "Channel: ");
    var c := t + "**\nChannel: " + channel;
    Regroup(c, "\n", "Video ID: ");
    var i := c + "\nVideo ID: " + id;
    Regroup(i, "\n", "Published: ");
    var d := i + "\nPublished: " + date;
    Regroup(d, "\n", "Description: ");
  }

  predicate SingleLineItem(item: SearchResult) {
    SingleLine(item.id) && SingleLine(item.title) && SingleLine(item.description)
    && SingleLine(item.channelTitle) && SingleLine(item.publishedAt)
  }

  /** Each block reads back as the title, channel, id, date and truncated description of the
      result at the same position, as long as those fields are single lines. */
  lemma BlocksReadBack(items: seq<SearchResult>)
    requires |items| > 0
    requires forall i :: 0 <= i < |items| ==> SingleLineItem(items[i])
    ensures |FormatVideos(items)| == |items|
    ensures forall i :: 0 <= i < |items| ==>
              ParseCard(FormatVideos(items)[i], VideoLabels)
                == Some(Card(items[i].title, [items[i].channelTitle, items[i].id, items[i].publishedAt,
                                              TruncateDescription(items[i].description)]))
  {
    forall i | 0 <= i < |items|
      ensures ParseCard(FormatVideos(items)[i], VideoLabels)
                == Some(Card(items[i].title, [items[i].channelTitle, items[i].id, items[i].publishedAt,
                                              TruncateDescription(items[i].description)]))
    {
      CardReadsBack(items[i]);
    }
  }

  lemma CardReadsBack(item: SearchResult)
    requires SingleLineItem(item)
    ensures ParseCard(RenderCard(VideoCard(VideoInfoOf(item)), VideoLabels), VideoLabels)
              == Some(Card(item.title, [item.channelTitle, item.id, item.publishedAt,
                                        TruncateDescription(item.description)]))
  {
    CardFits(item);
    CardRoundTrip(VideoCard(VideoInfoOf(item)), VideoLabels);
  }

  lemma CardFits(item: SearchResult)
    requires SingleLineItem(item)
    ensures FitsLayout(VideoCard(VideoInfoOf(item)), VideoLabels)
  {
    TruncateKeepsLineBreaksOut(item.description);
    LabelsSingle();
    var c := VideoCard(VideoInfoOf(item));
    assert c.values == [item.channelTitle, item.id, item.publishedAt, TruncateDescription(item.description)];
  }

  lemma LabelsSingle()
    ensures forall i :: 0 <= i < |VideoLabels| ==> SingleLine(VideoLabels[i])
  {
  }

  /** The thumbnails of a result never reach the output. */
  lemma ThumbnailsNotShown(items: seq<SearchResult>, others: seq<SearchResult>)
    requires |items| == |others|
    requires forall i :: 0 <= i < |items| ==> items[i].(thumbnails := others[i].thumbnails) == others[i]
    ensures FormatVideos(items) == FormatVideos(others)
  {
    if |items| > 0 {
      forall i | 0 <= i < |items|
        ensures VideoCard(VideoInfoOf(items[i])) == VideoCard(VideoInfoOf(others[i]))
      {
        assert items[i].title == others[i].title;
      }
    }
  }
}

=== FILE: text.dfy ===
/** String operations the handlers rely on, each written the way Python's `str` behaves:
    `sep.join`, `split`, `str(n)`, `int(s)` for plain digit strings, `strip` and prefix tests. */
module Text {
  import opened Wrappers

  // ---------------------------------------------------------------- join and split

  /** Python's `sep.join(parts)`. */
  function Join(sep: string, parts: seq<string>): string
    decreases |parts|
  {
    if |parts| == 0 then ""
    else if |parts| == 1 then parts[0]
    else parts[0] + sep + Join(sep, parts[1..])
  }

  /** Joining a concatenation puts exactly one separator between the two halves. */
  lemma {:induction false} JoinAppend(sep: string, a: seq<string>, b: seq<string>)
    requires |a| > 0 && |b| > 0
    ensures Join(sep, a + b) == Join(sep, a) + sep + Join(sep, b)
    decreases |a|
  {
    if |a| == 1 {
      assert (a + b)[1..] == b;
    } else {
      assert (a + b)[1..] == a[1..] + b;
      JoinAppend(sep, a[1..], b);
    }
  }

  /** With an empty separator (`"".join`) joining distributes over concatenation, empty parts included. */
  lemma {:induction false} ConcatAppend(a: seq<string>, b: seq<string>)
    ensures Join("", a + b) == Join("", a) + Join("", b)
    decreases |a|
  {
    if |a| == 0 {
      assert a + b == b;
    } else if |b| == 0 {
      assert a + b == a;
    } else {
      JoinAppend("", a, b);
    }
  }

  /** Regrouping a concatenation, so that adjacent literals can be read as one. */
  lemma Regroup(p: string, a: string, b: string)
    ensures p + a + b == p + (a + b)
  {
  }

  /** Joining four parts spells out the three separators. */
  lemma JoinFour(sep: string, a: string, b: string, c: string, d: string)
    ensures Join(sep, [a, b, c, d]) == a + sep + b + sep + c + sep + d
  {
    assert [a, b, c, d][1..] == [b, c, d];
    assert [b, c, d][1..] == [c, d];
    assert [c, d][1..] == [d];
    assert Join(sep, [c, d]) == c + sep + d;
    assert Join(sep, [b, c, d]) == b + sep + (c + sep + d);
    assert b + sep + (c + sep + d) == b + sep + c + sep + d;
    assert a + sep + (b + sep + c + sep + d) == a + sep + b + sep + c + sep + d;
  }

  /** Joining five parts spells out the four separators. */
  lemma JoinFive(sep: string, a: string, b: string, c: string, d: string, e: string)
    ensures Join(sep, [a, b, c, d, e]) == a + sep + b + sep + c + sep + d + sep + e
  {
    assert [a, b, c, d, e][1..] == [b, c, d, e];
    JoinFour(sep, b, c, d, e);
    assert a + sep + (b + sep + c + sep + d + sep + e) == a + sep + b + sep + c + sep + d + sep + e;
  }

  predicate NoneContain(parts: seq<string>, c: char) {
    forall i :: 0 <= i < |parts| ==> c !in parts[i]
  }

  /** Python's `s.split(c)` for a one-character separator: never empty, and no piece holds `c`. */
  function Split(s: string, c: char): (parts: seq<string>)
    ensures |parts| >= 1
    ensures NoneContain(parts, c)
    decreases |s|
  {
    if |s| == 0 then [""]
    else
      var rest := Split(s[1..], c);
      if s[0] == c then [""] + rest
      else
        var first := [s[0]] + rest[0];
        assert c !in first;
        [first] + rest[1..]
  }

  lemma {:induction false} SplitWithoutSeparator(s: string, c: char)
    requires c !in s
    ensures Split(s, c) == [s]
    decreases |s|
  {
    if |s| > 0 {
      assert c !in s[1..];
      SplitWithoutSeparator(s[1..], c);
      assert [s[0]] + s[1..] == s;
    }
  }

  lemma {:induction false} SplitAtFirstSeparator(a: string, c: char, b: string)
    requires c !in a
    ensures Split(a + [c] + b, c) == [a] + Split(b, c)
    decreases |a|
  {
    var s := a + [c] + b;
    if |a| == 0 {
      assert s[1..] == b;
    } else {
      assert s[1..] == a[1..] + [c] + b;
      assert c !in a[1..];
      SplitAtFirstSeparator(a[1..], c, b);
      assert [s[0]] + a[1..] == a;
    }
  }

  /** Splitting undoes joining, as long as no piece contains the separator. */
  lemma {:induction false} SplitJoin(parts: seq<string>, c: char)
    requires |parts| >= 1 && NoneContain(parts, c)
    ensures Split(Join([c], parts), c) == parts
    decreases |parts|
  {
    if |parts| == 1 {
      SplitWithoutSeparator(parts[0], c);
    } else {
      assert NoneContain(parts[1..], c);
      SplitJoin(parts[1..], c);
      SplitAtFirstSeparator(parts[0], c, Join([c], parts[1..]));
    }
  }

  // ---------------------------------------------------------------- decimal numbers

  predicate IsDigit(c: char) {
    '0' <= c <= '9'
  }

  predicate AllDigits(s: string) {
    forall i :: 0 <= i < |s| ==> IsDigit(s[i])
  }

  function DigitChar(d: nat): (c: char)
    requires d < 10
    ensures IsDigit(c)
  {
    ('0' as int + d) as char
  }

  function DigitValue(c: char): (d: nat)
    requires IsDigit(c)
    ensures d < 10
  {
    c as int - '0' as int
  }

  /** Python's `str(n)` for a non-negative int: decimal digits, no sign, no leading zero. */
  function NatToString(n: nat): (s: string)
    ensures |s| >= 1 && AllDigits(s)
    ensures s[0] == '0' ==> n == 0
    decreases n
  {
    if n < 10 then [DigitChar(n)] else NatToString(n / 10) + [DigitChar(n % 10)]
  }

  /** The value of a run of ASCII digits; leading zeros are allowed, as in `int("007")`. */
  function DigitsValue(s: string): nat
    requires AllDigits(s)
    decreases |s|
  {
    if |s| == 0 then 0 else DigitsValue(s[..|s| - 1]) * 10 + DigitValue(s[|s| - 1])
  }

  /** `int(s)` restricted to plain ASCII digit strings; None where `int` would raise. */
  function ParseDecimal(s: string): (r: Option<nat>)
    ensures r.Some? <==> |s| >= 1 && AllDigits(s)
  {
    if |s| >= 1 && AllDigits(s) then Some(DigitsValue(s)) else None
  }

  lemma {:induction false} DigitsValueOfNatToString(n: nat)
    ensures DigitsValue(NatToString(n)) == n
    decreases n
  {
    if n >= 10 {
      DigitsValueOfNatToString(n / 10);
      var s := NatToString(n);
      assert s[..|s| - 1] == NatToString(n / 10);
      assert DigitValue(s[|s| - 1]) == n % 10;
    }
  }

  /** `int(str(n)) == n`. */
  lemma ParseNatToString(n: nat)
    ensures ParseDecimal(NatToString(n)) == Some(n)
  {
    DigitsValueOfNatToString(n);
  }

  /** CPython's default cap (from 3.11 on) on the digits `int(str)` reads and `str(int)` writes in base 10. */
  const MaxStrDigits: nat := 4300

  /** `str(n)` at the digit cap and one past it. */
  lemma NatToStringSpelled()
    ensures NatToString(MaxStrDigits) == "4300"
    ensures NatToString(4301) == "4301"
  {
    assert NatToString(4) == "4";
    assert NatToString(43) == "43";
    assert NatToString(430) == "430";
  }

  /** `str(n)` returns instead of raising exactly when `n` has at most MaxStrDigits digits. */
  predicate Printable(n: nat) {
    |NatToString(n)| <= MaxStrDigits
  }

  // ---------------------------------------------------------------- whitespace

  /** Python's `str.isspace` on one character. */
  predicate IsSpace(c: char) {
    || '\t' <= c <= '\r'
    || '\U{1c}' <= c <= '\U{1f}'
    || c == ' ' || c == '\U{85}' || c == '\U{a0}' || c == '\U{1680}'
    || '\U{2000}' <= c <= '\U{200a}'
    || c == '\U{2028}' || c == '\U{2029}' || c == '\U{202f}' || c == '\U{205f}' || c == '\U{3000}'
  }

  predicate AllSpace(s: string) {
    forall i :: 0 <= i < |s| ==> IsSpace(s[i])
  }

  /** Python's `s.lstrip()`: the longest suffix that does not start with whitespace. */
  function StripStart(s: string): (r: string)
    ensures |r| <= |s| && r == s[|s| - |r|..]
    ensures r == [] || !IsSpace(r[0])
    ensures AllSpace(s[..|s| - |r|])
    decreases |s|
  {
    if |s| > 0 && IsSpace(s[0]) then
      var r := StripStart(s[1..]);
      assert s[..|s| - |r|] == [s[0]] + s[1..][..|s| - 1 - |r|];
      r
    else s
  }

  /** Python's `s.rstrip()`: the longest prefix that does not end with whitespace. */
  function StripEnd(s: string): (r: string)
    ensures |r| <= |s| && r == s[..|r|]
    ensures r == [] || !IsSpace(r[|r| - 1])
    ensures AllSpace(s[|r|..])
    decreases |s|
  {
    if |s| > 0 && IsSpace(s[|s| - 1]) then
      var r := StripEnd(s[..|s| - 1]);
      assert s[|r|..] == s[..|s| - 1][|r|..] + [s[|s| - 1]];
      r
    else s
  }

  /** Python's `s.strip()`. */
  function Strip(s: string): string {
    StripEnd(StripStart(s))
  }

  /** `not s.strip()` holds exactly for the strings made of whitespace alone (the empty one included). */
  lemma StripEmptyIffAllSpace(s: string)
    ensures Strip(s) == [] <==> AllSpace(s)
  {
    var t := StripStart(s);
    if Strip(s) == [] {
      assert t[0..] == t;
      // a non-empty `t` would start with a non-space character yet consist of spaces only
      assert t == [];
      assert s[..|s|] == s;
    }
  }

  // ---------------------------------------------------------------- prefixes and suffixes

  predicate EndsWith(s: string, suffix: string) {
    |suffix| <= |s| && s[|s| - |suffix|..] == suffix
  }

  /** `s[len(prefix):]` when `s.startswith(prefix)`, otherwise None. */
  function StripPrefix(s: string, prefix: string): (r: Option<string>)
    ensures r.Some? <==> prefix <= s
    ensures r.Some? ==> prefix + r.value == s
  {
    if prefix <= s then Some(s[|prefix|..]) else None
  }

  /** The middle of `s` when it is `prefix`, something, `suffix` (the two not overlapping). */
  function StripAffixes(s: string, prefix: string, suffix: string): (r: Option<string>)
    ensures r.Some? <==> |prefix| + |suffix| <= |s| && prefix <= s && EndsWith(s, suffix)
    ensures r.Some? ==> prefix + r.value + suffix == s
  {
    if |prefix| + |suffix| <= |s| && prefix <= s && EndsWith(s, suffix) then
      var middle := s[|prefix|..|s| - |suffix|];
      assert s == s[..|prefix|] + middle + s[|s| - |suffix|..];
      Some(middle)
    else None
  }

  lemma StripAffixesOf(prefix: string, middle: string, suffix: string)
    ensures StripAffixes(prefix + middle + suffix, prefix, suffix) == Some(middle)
  {
    var s := prefix + middle + suffix;
    assert s[|s| - |suffix|..] == suffix;
    assert s[|prefix|..|s| - |suffix|] == middle;
  }

  // ---------------------------------------------------------------- repr

  /** The quote `repr` puts around a string: double quotes when it holds a single quote and no
      double quote, single quotes otherwise. */
  function ReprQuote(s: string): (q: char)
    ensures q == '"' <==> '\'' in s && '"' !in s
    ensures q == '"' || q == '\''
  {
    if '\'' in s && '"' !in s then '"' else '\''
  }

  /** How `repr` writes one character inside quotes `q`: the backslash, the quote itself and the
      three common control characters are escaped; everything else stands for itself. */
  function EscapeChar(c: char, q: char): (r: string)
    ensures |r| == 1 <==> c != '\\' && c != q && c != '\n' && c != '\r' && c != '\t'
    ensures |r| == 1 ==> r == [c]
    ensures |r| != 1 ==> |r| == 2 && r[0] == '\\'
  {
    if c == '\\' then "\\\\"
    else if c == q then ['\\', q]
    else if c == '\n' then "\\n"
    else if c == '\r' then "\\r"
    else if c == '\t' then "\\t"
    else [c]
  }

  function Escape(s: string, q: char): string
    decreases |s|
  {
    if |s| == 0 then "" else EscapeChar(s[0], q) + Escape(s[1..], q)
  }

  /** `repr(s)` for strings whose only non-printable characters are `\n`, `\r` and `\t`. */
  function Repr(s: string): (r: string)
    ensures |r| >= 2 && r[0] == ReprQuote(s) && r[|r| - 1] == ReprQuote(s)
  {
    [ReprQuote(s)] + Escape(s, ReprQuote(s)) + [ReprQuote(s)]
  }

  /** `"%.Ns" % s`: the first `n` characters of `s`, all of it when it is shorter. */
  function Precision(s: string, n: nat): (r: string)
    ensures |r| == if |s| <= n then |s| else n
    ensures r <= s
  {
    if |s| <= n then s else s[..n]
  }

  /** Reads an escaped body back, the way Python reads the inside of a string literal. */
  function Unescape(t: string): string
    decreases |t|
  {
    if |t| == 0 then ""
    else if t[0] == '\\' && |t| >= 2 then
      [if t[1] == 'n' then '\n' else if t[1] == 'r' then '\r' else if t[1] == 't' then '\t' else t[1]]
      + Unescape(t[2..])
    else [t[0]] + Unescape(t[1..])
  }

  /** Reading back what `repr` escaped gives the original string, whichever quote was chosen. */
  lemma {:induction false} UnescapeEscape(s: string, q: char)
    requires q == '"' || q == '\''
    ensures Unescape(Escape(s, q)) == s
    decreases |s|
  {
    if |s| > 0 {
      var head, rest := EscapeChar(s[0], q), Escape(s[1..], q);
      UnescapeEscape(s[1..], q);
      assert Escape(s, q) == head + rest;
      if |head| == 1 {
        assert (head + rest)[1..] == rest;
      } else {
        assert (head + rest)[2..] == rest;
      }
    }
  }

  /** The body between `repr`'s quotes reads back as the string itself. */
  lemma ReprReadsBack(s: string)
    ensures Unescape(Repr(s)[1..|Repr(s)| - 1]) == s
  {
    var q := ReprQuote(s);
    assert Repr(s)[1..|Repr(s)| - 1] == Escape(s, q);
    UnescapeEscape(s, q);
  }

  /** A string without quotes, backslashes or control characters is shown as itself in single quotes. */
  lemma {:induction false} ReprPlain(s: string)
    requires forall i :: 0 <= i < |s| ==> s[i] !in {'\'', '\\', '\n', '\r', '\t'}
    ensures Repr(s) == "'" + s + "'"
  {
    EscapePlain(s);
  }

  lemma {:induction false} EscapePlain(s: string)
    requires forall i :: 0 <= i < |s| ==> s[i] !in {'\'', '\\', '\n', '\r', '\t'}
    ensures Escape(s, '\'') == s
    decreases |s|
  {
    if |s| > 0 {
      EscapePlain(s[1..]);
      assert [s[0]] + s[1..] == s;
    }
  }

  /** `repr("1'2")` is `"1'2"` in double quotes, and a backslash comes out doubled. */
  lemma ReprExamples()
    ensures Repr("1'2") == "\"1'2\""
    ensures Repr("1\\2") == "'1\\\\2'"
  {
    assert '\'' in "1'2";
    assert Escape("1'2", '"') == "1'2" by {
      assert "1'2"[1..] == "'2" && "'2"[1..] == "2" && "2"[1..] == "";
    }
    assert Escape("1\\2", '\'') == "1\\\\2" by {
      assert "1\\2"[1..] == "\\2" && "\\2"[1..] == "2" && "2"[1..] == "";
    }
  }
}

=== FILE: timestamp.dfy ===
/** The `published_after` check shared by `validate_youtube_params`, the inline check of the
    playlist search and the input models: `re.match(r'^\d{4}-\d{2}-\d{2}T\d{2}:\d{2}:\d{2}Z$', v)`.
    It fixes the shape of a UTC `date-time` of section 5.6 of RFC 3339 with no fractional
    seconds and the `Z` offset only; it checks no ranges, so month 99 passes. */
module Timestamp {
  import opened Wrappers
  import opened Text

  /** The regular expression without its anchors, read literally over the whole string. */
  predicate FitsShape(s: string) {
    && |s| == 20
    && AllDigits(s[0..4]) && s[4] == '-'
    && AllDigits(s[5..7]) && s[7] == '-'
    && AllDigits(s[8..10]) && s[10] == 'T'
    && AllDigits(s[11..13]) && s[13] == ':'
    && AllDigits(s[14..16]) && s[16] == ':'
    && AllDigits(s[17..19]) && s[19] == 'Z'
  }

  /** `re.match` with the pattern: Python's `$` also matches just before a final "\n". */
  function Matches(s: string): (b: bool)
    ensures FitsShape(s) ==> b
    ensures b ==> |s| == 20 || (|s| == 21 && s[20] == '\n')
    ensures b ==> s[4] == '-' && s[7] == '-' && s[10] == 'T' && s[13] == ':' && s[16] == ':' && s[19] == 'Z'
    ensures b ==> AllDigits(s[..4]) && AllDigits(s[17..19])
  {
    assert |s| >= 20 ==> s[..20][0..4] == s[..4] && s[..20][17..19] == s[17..19];
    || FitsShape(s)
    || (|s| == 21 && s[20] == '\n' && FitsShape(s[..20]))
  }

  /** `if v and not re.match(...)`: absent and empty values pass unchecked. */
  predicate AcceptsPublishedAfter(v: Option<string>) {
    v.None? || v.value == "" || Matches(v.value)
  }

  // ---------------------------------------------------------------- an independent reading

  /** The six numbers a timestamp of the accepted shape spells out. */
  datatype Fields = Fields(year: nat, month: nat, day: nat, hour: nat, minute: nat, second: nat)

  /** What four and two digit places can hold; nothing here is a calendar range. */
  predicate Spellable(f: Fields) {
    f.year < 10000 && f.month < 100 && f.day < 100 && f.hour < 100 && f.minute < 100 && f.second < 100
  }

  function Pow10(n: nat): nat {
    if n == 0 then 1 else 10 * Pow10(n - 1)
  }

  /** `n` in exactly `width` decimal places, zero-padded on the left. */
  function Pad(n: nat, width: nat): (s: string)
    requires n < Pow10(width)
    ensures |s| == width && AllDigits(s)
    decreases width
  {
    if width == 0 then "" else Pad(n / 10, width - 1) + [DigitChar(n % 10)]
  }

  /** `YYYY-MM-DD`. */
  function DatePart(f: Fields): string
    requires Spellable(f)
  {
    Pad(f.year, 4) + "-" + Pad(f.month, 2) + "-" + Pad(f.day, 2)
  }

  /** `hh:mm:ss`. */
  function ClockPart(f: Fields): string
    requires Spellable(f)
  {
    Pad(f.hour, 2) + ":" + Pad(f.minute, 2) + ":" + Pad(f.second, 2)
  }

  function Render(f: Fields): string
    requires Spellable(f)
  {
    DatePart(f) + "T" + ClockPart(f) + "Z"
  }

  function Parse(s: string): Option<Fields> {
    if FitsShape(s) then
      Some(Fields(DigitsValue(s[0..4]), DigitsValue(s[5..7]), DigitsValue(s[8..10]),
                  DigitsValue(s[11..13]), DigitsValue(s[14..16]), DigitsValue(s[17..19])))
    else None
  }

  lemma {:induction false} PadValue(n: nat, width: nat)
    requires n < Pow10(width)
    ensures DigitsValue(Pad(n, width)) == n
    decreases width
  {
    if width > 0 {
      PadValue(n / 10, width - 1);
      var s := Pad(n, width);
      assert s[..|s| - 1] == Pad(n / 10, width - 1);
    }
  }

  lemma {:induction false} PadOfDigits(s: string)
    requires AllDigits(s)
    ensures DigitsValue(s) < Pow10(|s|)
    ensures Pad(DigitsValue(s), |s|) == s
    decreases |s|
  {
    if |s| > 0 {
      var init := s[..|s| - 1];
      var last := s[|s| - 1];
      PadOfDigits(init);
      var v := DigitsValue(init);
      var d := DigitValue(last);
      assert (v * 10 + d) / 10 == v && (v * 10 + d) % 10 == d;
      assert DigitChar(d) == last;
      assert init + [last] == s;
    }
  }

  lemma DateSlots(f: Fields)
    requires Spellable(f)
    ensures var d := DatePart(f);
            |d| == 10 && d[0..4] == Pad(f.year, 4) && d[4] == '-' && d[5..7] == Pad(f.month, 2)
            && d[7] == '-' && d[8..10] == Pad(f.day, 2)
  {
  }

  lemma ClockSlots(f: Fields)
    requires Spellable(f)
    ensures var c := ClockPart(f);
            |c| == 8 && c[0..2] == Pad(f.hour, 2) && c[2] == ':' && c[3..5] == Pad(f.minute, 2)
            && c[5] == ':' && c[6..8] == Pad(f.second, 2)
  {
  }

  /** The rendering has the accepted shape, with each field padded into its own slot. */
  lemma RenderFitsShape(f: Fields)
    requires Spellable(f)
    ensures FitsShape(Render(f))
    ensures Render(f)[0..4] == Pad(f.year, 4) && Render(f)[5..7] == Pad(f.month, 2)
    ensures Render(f)[8..10] == Pad(f.day, 2) && Render(f)[11..13] == Pad(f.hour, 2)
    ensures Render(f)[14..16] == Pad(f.minute, 2) && Render(f)[17..19] == Pad(f.second, 2)
  {
    DateSlots(f);
    ClockSlots(f);
    var d, c := DatePart(f), ClockPart(f);
    var s := Render(f);
    assert s[0..10] == d && s[11..19] == c;
    assert s[0..4] == d[0..4] && s[5..7] == d[5..7] && s[8..10] == d[8..10];
    assert s[11..13] == c[0..2] && s[14..16] == c[3..5] && s[17..19] == c[6..8];
  }

  /** Every spellable field tuple is rendered into an accepted string that parses back to it. */
  lemma ParseRender(f: Fields)
    requires Spellable(f)
    ensures Parse(Render(f)) == Some(f)
  {
    RenderFitsShape(f);
    PadValue(f.year, 4);
    PadValue(f.month, 2);
    PadValue(f.day, 2);
    PadValue(f.hour, 2);
    PadValue(f.minute, 2);
    PadValue(f.second, 2);
  }

  /** Each digit slot of an accepted string is its field, padded back to the slot's width. */
  lemma ShapeFields(s: string)
    requires FitsShape(s)
    ensures Parse(s).Some? && Spellable(Parse(s).value)
    ensures var f := Parse(s).value;
            Pad(f.year, 4) == s[0..4] && Pad(f.month, 2) == s[5..7] && Pad(f.day, 2) == s[8..10]
            && Pad(f.hour, 2) == s[11..13] && Pad(f.minute, 2) == s[14..16] && Pad(f.second, 2) == s[17..19]
  {
    PadOfDigits(s[0..4]);
    PadOfDigits(s[5..7]);
    PadOfDigits(s[8..10]);
    PadOfDigits(s[11..13]);
    PadOfDigits(s[14..16]);
    PadOfDigits(s[17..19]);
  }

  /** A ten-character date whose slots hold the padded date fields is their date part. */
  lemma DatePartOf(f: Fields, d: string)
    requires Spellable(f) && |d| == 10 && d[4] == '-' && d[7] == '-'
    requires Pad(f.year, 4) == d[0..4] && Pad(f.month, 2) == d[5..7] && Pad(f.day, 2) == d[8..10]
    ensures DatePart(f) == d
  {
    assert d == d[0..4] + [d[4]] + d[5..7] + [d[7]] + d[8..10];
  }

  /** An eight-character clock whose slots hold the padded clock fields is their clock part. */
  lemma ClockPartOf(f: Fields, c: string)
    requires Spellable(f) && |c| == 8 && c[2] == ':' && c[5] == ':'
    requires Pad(f.hour, 2) == c[0..2] && Pad(f.minute, 2) == c[3..5] && Pad(f.second, 2) == c[6..8]
    ensures ClockPart(f) == c
  {
    assert c == c[0..2] + [c[2]] + c[3..5] + [c[5]] + c[6..8];
  }

  /** Every string of the accepted shape is the rendering of the fields it spells. */
  lemma RenderParse(s: string)
    requires FitsShape(s)
    ensures Parse(s).Some? && Spellable(Parse(s).value) && Render(Parse(s).value) == s
  {
    ShapeFields(s);
    var f, d, c := Parse(s).value, s[0..10], s[11..19];
    assert d[0..4] == s[0..4] && d[5..7] == s[5..7] && d[8..10] == s[8..10];
    assert c[0..2] == s[11..13] && c[3..5] == s[14..16] && c[6..8] == s[17..19];
    DatePartOf(f, d);
    ClockPartOf(f, c);
    RenderOfParts(f, s);
  }

  lemma RenderOfParts(f: Fields, s: string)
    requires Spellable(f) && |s| == 20 && s[10] == 'T' && s[19] == 'Z'
    requires DatePart(f) == s[0..10] && ClockPart(f) == s[11..19]
    ensures Render(f) == s
  {
    assert s == s[0..10] + [s[10]] + s[11..19] + [s[19]];
  }

  /** The accepted strings of length 20 are exactly the renderings of digit tuples: the shape
      check is syntax only, with no calendar or clock ranges. */
  lemma AcceptedAreRenderings(s: string)
    ensures FitsShape(s) <==> Parse(s).Some? && Spellable(Parse(s).value) && Render(Parse(s).value) == s
  {
    if FitsShape(s) {
      RenderParse(s);
    }
  }

  // ---------------------------------------------------------------- what the check lets through

  /** No range checks: month, day, hour, minute and second 99 all pass. */
  lemma AcceptsOutOfRange()
    ensures Matches("9999-99-99T99:99:99Z")
  {
    var f := Fields(9999, 99, 99, 99, 99, 99);
    RenderFitsShape(f);
    assert Pad(99, 2) == "99";
    assert Pad(9999, 4) == "9999";
    assert DatePart(f) == "9999-99-99";
    assert ClockPart(f) == "99:99:99";
    assert Render(f) == "9999-99-99T99:99:99Z";
  }

  /** A numeric offset, fractional seconds or a lower-case `z` are all refused. */
  lemma RejectsOtherRfc3339Forms()
    ensures !Matches("2023-01-01T00:00:00+00:00")
    ensures !Matches("2023-01-01T00:00:00.5Z")
    ensures !Matches("2023-01-01T00:00:00z")
  {
    assert "2023-01-01T00:00:00z"[19] == 'z';
  }

  /** Python's `$` lets a single trailing newline through. */
  lemma AcceptsTrailingNewline()
    ensures Matches("2023-01-01T00:00:00Z\n")
  {
    var f := Fields(2023, 1, 1, 0, 0, 0);
    RenderFitsShape(f);
    assert Pad(2023, 4) == "2023" && Pad(1, 2) == "01" && Pad(0, 2) == "00";
    assert DatePart(f) == "2023-01-01";
    assert ClockPart(f) == "00:00:00";
    var t := Render(f);
    assert t == "2023-01-01T00:00:00Z";
    var s := "2023-01-01T00:00:00Z\n";
    assert s == t + "\n";
    assert s[..20] == t && s[20] == '\n';
  }
}

=== FILE: transcripts.dfy ===
/** The `fetch_transcripts` handler: one fetch in the requested language, a second fetch in the
    transcript library's own default when the first finds no transcript, then the snippets'
    texts concatenated and reported. The handler never asks for the YouTube API key. */
module Transcripts {
  import opened Wrappers
  import opened Text
  import opened Errors

  /** One caption line as the transcript library returns it; only `text` is used. */
  datatype Snippet = Snippet(text: string, start: real, duration: real)

  /** `languages=[code]`, or no `languages` argument at all. */
  datatype Languages = Requested(code: string) | LibraryDefault

  /** What one call of the library's `fetch` does. */
  datatype FetchOutcome =
    | Fetched(snippets: seq<Snippet>)
    | NoTranscriptFound
    | TranscriptsDisabled
    | FetchFailed(detail: string)    // any other exception, with its `str(e)`

  /** The validated input: a video id and a language code. */
  datatype TranscriptRequest = TranscriptRequest(videoId: string, languageCode: string)

  /** The transcript library, as a function of the video id and the languages asked for. */
  type Fetcher = (string, Languages) -> FetchOutcome

  const NoTranscriptInAnyLanguage: string := "No transcript available for this video in any language."
  const NoTranscriptForVideo: string := "No transcript available for this video."
  const EmptyTranscript: string := "Transcript is empty or unavailable."
  const TranscriptsDisabledMessage: string := "Transcripts are disabled for this video or access is restricted."

  /** `"".join(snippet.text for snippet in transcript.snippets)`. */
  function TranscriptText(snippets: seq<Snippet>): string {
    Join("", seq(|snippets|, i requires 0 <= i < |snippets| => snippets[i].text))
  }

  function Heading(videoId: string, languageCode: string): string {
    "Transcript for video ID " + videoId + " (language: " + languageCode + "):\n\n"
  }

  /** The two nested inner `try` blocks: either they settle on one fetch outcome for the outer
      handlers, or both fetches found nothing and the handler answers at once. */
  datatype Attempt = Settled(outcome: FetchOutcome) | NoneInAnyLanguage

  function TryFetch(req: TranscriptRequest, fetch: Fetcher): (a: Attempt)
    ensures a.Settled? ==> !a.outcome.NoTranscriptFound?
    ensures a.NoneInAnyLanguage? <==>
              fetch(req.videoId, Requested(req.languageCode)).NoTranscriptFound?
              && fetch(req.videoId, LibraryDefault).NoTranscriptFound?
    ensures !fetch(req.videoId, Requested(req.languageCode)).NoTranscriptFound? ==>
              a == Settled(fetch(req.videoId, Requested(req.languageCode)))
    ensures fetch(req.videoId, Requested(req.languageCode)).NoTranscriptFound? && a.Settled? ==>
              a.outcome == fetch(req.videoId, LibraryDefault)
  {
    var first := fetch(req.videoId, Requested(req.languageCode));
    if !first.NoTranscriptFound? then Settled(first)
    else
      var second := fetch(req.videoId, LibraryDefault);
      if second.NoTranscriptFound? then NoneInAnyLanguage else Settled(second)
  }

  /** The outer `try` from the concatenation on, with its three `except` clauses. */
  function Settle(req: TranscriptRequest, outcome: FetchOutcome): Result<seq<string>, YouTubeApiError> {
    match outcome
    case Fetched(snippets) =>
      var text := TranscriptText(snippets);
      if Strip(text) == [] then Ok([EmptyTranscript])
      else Ok([Heading(req.videoId, req.languageCode) + text])
    case TranscriptsDisabled => Ok([TranscriptsDisabledMessage])
    case NoTranscriptFound => Ok([NoTranscriptForVideo])
    case FetchFailed(d) => Err(Wrap(VideoId(req.videoId), OtherFailure(d)))
  }

  /** `fetch_transcripts(arguments)`; `input` is the outcome of the input model, whose
      rejection message becomes the error's detail. */
  function FetchTranscripts(input: Result<TranscriptRequest, string>, fetch: Fetcher)
    : (r: Result<seq<string>, YouTubeApiError>)
    ensures input.Err? ==> r == Err(InvalidInput(input.error))
    ensures r.Ok? ==> |r.value| == 1
  {
    match input
    case Err(msg) => Err(InvalidInput(msg))
    case Ok(req) =>
      match TryFetch(req, fetch)
      case NoneInAnyLanguage => Ok([NoTranscriptInAnyLanguage])
      case Settled(outcome) => Settle(req, outcome)
  }

  // ---------------------------------------------------------------- properties

  /** Rejected arguments never reach the transcript library. */
  lemma InvalidInputNeverFetched(msg: string, f: Fetcher, g: Fetcher)
    ensures FetchTranscripts(Err(msg), f) == FetchTranscripts(Err(msg), g)
  {
  }

  /** The default-language fetch is consulted only after the requested language found nothing:
      two libraries that agree on the first call give the same answer. */
  lemma FallbackOnlyAfterNotFound(req: TranscriptRequest, f: Fetcher, g: Fetcher)
    requires f(req.videoId, Requested(req.languageCode)) == g(req.videoId, Requested(req.languageCode))
    requires !f(req.videoId, Requested(req.languageCode)).NoTranscriptFound?
    ensures FetchTranscripts(Ok(req), f) == FetchTranscripts(Ok(req), g)
  {
  }

  /** A transcript found through the fallback is reported exactly as if the requested language
      had been found, so the heading names the requested language code, not the one served. */
  lemma FallbackReportedAsRequested(req: TranscriptRequest, f: Fetcher, g: Fetcher, snippets: seq<Snippet>)
    requires f(req.videoId, Requested(req.languageCode)) == NoTranscriptFound
    requires f(req.videoId, LibraryDefault) == Fetched(snippets)
    requires g(req.videoId, Requested(req.languageCode)) == Fetched(snippets)
    ensures FetchTranscripts(Ok(req), f) == FetchTranscripts(Ok(req), g)
  {
  }

  lemma NothingInAnyLanguage(req: TranscriptRequest, f: Fetcher)
    requires f(req.videoId, Requested(req.languageCode)) == NoTranscriptFound
    requires f(req.videoId, LibraryDefault) == NoTranscriptFound
    ensures FetchTranscripts(Ok(req), f) == Ok([NoTranscriptInAnyLanguage])
  {
  }

  /** Disabled transcripts are an answer, not an error, whichever of the two fetches reports them. */
  lemma DisabledIsAnAnswer(req: TranscriptRequest, f: Fetcher)
    requires f(req.videoId, Requested(req.languageCode)) == TranscriptsDisabled
             || (f(req.videoId, Requested(req.languageCode)) == NoTranscriptFound
                 && f(req.videoId, LibraryDefault) == TranscriptsDisabled)
    ensures FetchTranscripts(Ok(req), f) == Ok([TranscriptsDisabledMessage])
  {
  }

  /** Any other failure of either fetch becomes an unexpected error naming the video. */
  lemma FailuresWrapped(req: TranscriptRequest, f: Fetcher, detail: string)
    requires f(req.videoId, Requested(req.languageCode)) == FetchFailed(detail)
             || (f(req.videoId, Requested(req.languageCode)) == NoTranscriptFound
                 && f(req.videoId, LibraryDefault) == FetchFailed(detail))
    ensures FetchTranscripts(Ok(req), f) == Err(Wrap(VideoId(req.videoId), OtherFailure(detail)))
    ensures FetchTranscripts(Ok(req), f).error.message
              == UnexpectedPrefix + "video ID '" + req.videoId + "': " + detail
  {
  }

  /** The outer `except NoTranscriptFound` can never answer: both fetches' "not found" are
      handled by the inner clauses, so its message is never produced. */
  lemma OuterNotFoundUnreachable(req: TranscriptRequest, f: Fetcher)
    ensures FetchTranscripts(Ok(req), f) != Ok([NoTranscriptForVideo])
  {
    match TryFetch(req, f)
    case NoneInAnyLanguage =>
      assert |NoTranscriptInAnyLanguage| != |NoTranscriptForVideo|;
    case Settled(outcome) =>
      match outcome
      case Fetched(snippets) =>
        var text := TranscriptText(snippets);
        if Strip(text) != [] {
          HeadedMessageDistinct(req.videoId, req.languageCode, text);
        }
      case TranscriptsDisabled =>
      case FetchFailed(_) =>
  }

  /** A fetched transcript is reported as blank exactly when its concatenated text is whitespace
      only (Python's notion of whitespace); otherwise the message is the heading followed by
      the whole text, which reads back unchanged. */
  lemma FetchedTranscriptReported(req: TranscriptRequest, f: Fetcher, snippets: seq<Snippet>)
    requires f(req.videoId, Requested(req.languageCode)) == Fetched(snippets)
    ensures FetchTranscripts(Ok(req), f) == Ok([EmptyTranscript]) <==> AllSpace(TranscriptText(snippets))
    ensures !AllSpace(TranscriptText(snippets)) ==>
              StripPrefix(FetchTranscripts(Ok(req), f).value[0], Heading(req.videoId, req.languageCode))
                == Some(TranscriptText(snippets))
  {
    var text := TranscriptText(snippets);
    assert FetchTranscripts(Ok(req), f) == Settle(req, Fetched(snippets));
    StripEmptyIffAllSpace(text);
    if Strip(text) != [] {
      var heading := Heading(req.videoId, req.languageCode);
      HeadedMessageDistinct(req.videoId, req.languageCode, text);
      assert (heading + text)[|heading|..] == text;
    }
  }

  /** A transcript message never coincides with one of the fixed answers. */
  lemma HeadedMessageDistinct(videoId: string, languageCode: string, text: string)
    ensures Heading(videoId, languageCode) + text != EmptyTranscript
    ensures Heading(videoId, languageCode) + text != NoTranscriptForVideo
  {
    var message := Heading(videoId, languageCode) + text;
    assert message[..24] == "Transcript for video ID ";
    assert message[11] == 'f' && EmptyTranscript[11] == 'i';
    assert message[0] == 'T' && NoTranscriptForVideo[0] == 'N';
  }

  /** The caption timings play no part: transcripts with the same texts give the same answer. */
  lemma TimingsIgnored(req: TranscriptRequest, f: Fetcher, g: Fetcher, a: seq<Snippet>, b: seq<Snippet>)
    requires |a| == |b| && forall i :: 0 <= i < |a| ==> a[i].text == b[i].text
    requires f(req.videoId, Requested(req.languageCode)) == Fetched(a)
    requires g(req.videoId, Requested(req.languageCode)) == Fetched(b)
    ensures FetchTranscripts(Ok(req), f) == FetchTranscripts(Ok(req), g)
  {
    assert TranscriptText(a) == TranscriptText(b) by {
      assert seq(|a|, i requires 0 <= i < |a| => a[i].text) == seq(|b|, i requires 0 <= i < |b| => b[i].text);
    }
  }

  /** The texts are concatenated with nothing between them, in order. */
  lemma {:induction false} TranscriptTextAppend(a: seq<Snippet>, b: seq<Snippet>)
    ensures TranscriptText(a + b) == TranscriptText(a) + TranscriptText(b)
  {
    var ta := seq(|a|, i requires 0 <= i < |a| => a[i].text);
    var tb := seq(|b|, i requires 0 <= i < |b| => b[i].text);
    assert seq(|a + b|, i requires 0 <= i < |a + b| => (a + b)[i].text) == ta + tb;
    ConcatAppend(ta, tb);
  }
}

=== FILE: utils.dfy ===
/** `validate_youtube_params` and `get_youtube_client`. */
module Utils {
  import opened Wrappers
  import opened Errors
  import opened Timestamp

  const ValidOrders: set<string> := {"relevance", "date", "rating", "viewCount"}
  const ValidDurations: set<string> := {"any", "short", "medium", "long"}

  /** Checks `order`, then `duration`, then `published_after`, and raises for the first one that
      fails, so the reported field is the earliest failing one in that order. */
  function ValidateYouTubeParams(order: string, duration: string, publishedAfter: Option<string>): (r: Result<(), Cause>)
    ensures r.Ok? <==> order in ValidOrders && duration in ValidDurations && AcceptsPublishedAfter(publishedAfter)
    ensures order !in ValidOrders ==> r == Err(InvalidOrder(order))
    ensures order in ValidOrders && duration !in ValidDurations ==> r == Err(InvalidDuration(duration))
    ensures order in ValidOrders && duration in ValidDurations && !AcceptsPublishedAfter(publishedAfter)
            ==> r == Err(InvalidPublishedAfter(publishedAfter.value))
  {
    if order !in ValidOrders then Err(InvalidOrder(order))
    else if duration !in ValidDurations then Err(InvalidDuration(duration))
    else if publishedAfter.Some? && publishedAfter.value != "" && !Matches(publishedAfter.value) then
      Err(InvalidPublishedAfter(publishedAfter.value))
    else Ok(())
  }

  /** The process environment as the handlers see it: the `YOUTUBE_API_KEY` variable. */
  datatype Environment = Environment(apiKey: Option<string>)

  /** A client built with the configured key. */
  datatype Client = Client(developerKey: string)

  /** Fails with the configuration error when the key is unset or empty. */
  function GetYouTubeClient(env: Environment): (r: Result<Client, YouTubeApiError>)
    ensures r.Ok? <==> env.apiKey.Some? && env.apiKey.value != ""
    ensures r.Ok? ==> r.value.developerKey == env.apiKey.value
    ensures r.Err? ==> r.error == MissingApiKey
  {
    match env.apiKey
    case Some(key) => if key != "" then Ok(Client(key)) else Err(MissingApiKey)
    case None => Err(MissingApiKey)
  }
}

=== FILE: video_metrics.dfy ===
/** The `get_video_metrics` handler: the input model is checked before the client is obtained;
    then one `videos` lookup, the first item only, counters defaulting to '0'. */
module VideoMetrics {
  import opened Wrappers
  import opened Text
  import opened Errors
  import opened Utils
  import opened Models
  import opened Reshape
  import opened Cards
  import opened YouTubeApi

  const NoVideoFound: string := "No video found for the given ID."
  const VideoMetricLabels: seq<string> := ["Views: ", "Likes: ", "Comments: "]

  function VideoParams(id: string): Params {
    map["part" := Str("snippet,statistics"), "id" := Str(id)]
  }

  /** `video_info`, as printed: the title and three counters, each '0' when absent. */
  function MetricsCard(item: VideoResource): Card {
    Card(item.title, [Counter(item.statistics, "viewCount"), Counter(item.statistics, "likeCount"),
                      Counter(item.statistics, "commentCount")])
  }

  /** The not-found text, or one block built from the first item alone. */
  function FormatVideoMetrics(items: seq<VideoResource>): (texts: seq<string>)
    ensures |texts| == 1
  {
    if |items| == 0 then [NoVideoFound] else [RenderCard(MetricsCard(items[0]), VideoMetricLabels)]
  }

  /** `get_video_metrics(arguments)`: `VideoIdInput(**arguments)` first, then the client, then
      the lookup; failures of the lookup are wrapped with the validated id. */
  function VideoMetricsTool(env: Environment, videoId: Option<string>, videos: Endpoint<VideoResource>)
    : (r: Result<seq<string>, YouTubeApiError>)
    ensures videoId.None? || videoId.value == "" ==> r.Err? && InvalidInputPrefix <= r.error.message
    ensures videoId.Some? && videoId.value != "" && GetYouTubeClient(env).Err? ==> r == Err(MissingApiKey)
    ensures r.Ok? <==> videoId.Some? && videoId.value != "" && GetYouTubeClient(env).Ok?
                       && videos(VideoParams(videoId.value)).Response?
    ensures r.Ok? ==> |r.value| == 1
    ensures r.Err? && videoId.Some? && videoId.value != "" && GetYouTubeClient(env).Ok? ==>
              NamesSubject(r.error, VideoId(videoId.value))
  {
    match ValidateIdInput(VideoIdField, videoId)
    case Err(errors) => Err(InvalidInput(ErrorsText(errors)))
    case Ok(id) =>
      var _ :- GetYouTubeClient(env);
      match Execute(videos(VideoParams(id)))
      case Err(c) => Err(Wrap(VideoId(id), c))
      case Ok(body) => Ok(FormatVideoMetrics(body.Items()))
  }

  // ---------------------------------------------------------------- properties

  /** A missing or empty id is reported as invalid input even when no key is configured, and
      without the endpoint being used. */
  lemma InputCheckedBeforeClient(env: Environment, videoId: Option<string>, v1: Endpoint<VideoResource>, v2: Endpoint<VideoResource>)
    requires videoId.None? || videoId.value == ""
    ensures VideoMetricsTool(env, videoId, v1) == VideoMetricsTool(env, videoId, v2)
    ensures VideoMetricsTool(env, videoId, v1).Err?
    ensures InvalidInputPrefix <= VideoMetricsTool(env, videoId, v1).error.message
  {
  }

  /** With a valid id, a missing key is the configuration error, unwrapped. */
  lemma MissingKeyAfterInput(env: Environment, id: string, videos: Endpoint<VideoResource>)
    requires id != "" && GetYouTubeClient(env).Err?
    ensures VideoMetricsTool(env, Some(id), videos) == Err(MissingApiKey)
  {
  }

  lemma NotFoundMessage(env: Environment, id: string, videos: Endpoint<VideoResource>)
    requires id != "" && GetYouTubeClient(env).Ok?
    requires videos(VideoParams(id)).Response? && videos(VideoParams(id)).body.Items() == []
    ensures VideoMetricsTool(env, Some(id), videos) == Ok([NoVideoFound])
  {
  }

  /** With a valid id and a key, a response is answered with the formatted items of that
      response, nothing else. */
  lemma Answer(env: Environment, id: string, videos: Endpoint<VideoResource>)
    requires id != "" && GetYouTubeClient(env).Ok? && videos(VideoParams(id)).Response?
    ensures VideoMetricsTool(env, Some(id), videos) == Ok(FormatVideoMetrics(videos(VideoParams(id)).body.Items()))
  {
  }

  /** The block is the handler's f-string for the first item, whatever its fields hold:
      `**{title}**\nViews: {views}\nLikes: {likes}\nComments: {comments}`. */
  lemma BlockSpelled(items: seq<VideoResource>)
    requires |items| > 0
    ensures FormatVideoMetrics(items)
              == ["**" + items[0].title + "**\nViews: " + Counter(items[0].statistics, "viewCount")
                  + "\nLikes: " + Counter(items[0].statistics, "likeCount")
                  + "\nComments: " + Counter(items[0].statistics, "commentCount")]
  {
    var c := MetricsCard(items[0]);
    SpellThree(c.title, VideoMetricLabels, c.values);
    LabelsSpelled(c.title, c.values[0], c.values[1], c.values[2]);
  }

  lemma LabelsSpelled(title: string, views: string, likes: string, comments: string)
    ensures "**" + title + "**" + "\n" + VideoMetricLabels[0] + views + "\n" + VideoMetricLabels[1] + likes
              + "\n" + VideoMetricLabels[2] + comments
            == "**" + title + "**\nViews: " + views + "\nLikes: " + likes + "\nComments: " + comments
  {
    assert VideoMetricLabels[0] == "Views: " && VideoMetricLabels[1] == "Likes: " && VideoMetricLabels[2] == "Comments: ";
    assert "**" + "\n" == "**\n" && "**\n" + "Views: " == "**\nViews: ";
    assert "\n" + "Likes: " == "\nLikes: " && "\n" + "Comments: " == "\nComments: ";
    var t := "**" + title;
    Regroup(t, "**", "\n");
    Regroup(t, "**\n", "Views: ");
    var v := t + "**\nViews: " + views;
    Regroup(v, "\n", "Likes: ");
    var l := v + "\nLikes: " + likes;
    Regroup(l, "\n", "Comments: ");
  }

  /** Only the first item of the response matters. */
  lemma OnlyFirstItemUsed(a: seq<VideoResource>, b: seq<VideoResource>)
    requires |a| > 0 && |b| > 0 && a[0] == b[0]
    ensures FormatVideoMetrics(a) == FormatVideoMetrics(b)
  {
  }

  /** The block has exactly four lines, which read back as the first item's title and its view,
      like and comment counts, with '0' standing for an absent counter. */
  lemma BlockReadsBack(items: seq<VideoResource>)
    requires |items| > 0
    requires SingleLine(items[0].title)
    requires forall k :: k in items[0].statistics ==> SingleLine(items[0].statistics[k])
    ensures |Split(FormatVideoMetrics(items)[0], '\n')| == 4
    ensures ParseCard(FormatVideoMetrics(items)[0], VideoMetricLabels)
              == Some(Card(items[0].title, [Counter(items[0].statistics, "viewCount"),
                                            Counter(items[0].statistics, "likeCount"),
                                            Counter(items[0].statistics, "commentCount")]))
  {
    var c := MetricsCard(items[0]);
    assert forall i :: 0 <= i < |VideoMetricLabels| ==> SingleLine(VideoMetricLabels[i]);
    assert forall i :: 0 <= i < |c.values| ==> SingleLine(c.values[i]);
    CardRoundTrip(c, VideoMetricLabels);
  }
}

=== FILE: wrappers.dfy ===
/** Failure-compatible wrappers used throughout the model: `Option` for a value that may be
    absent (a dictionary key that is not there) and `Result` for a computation that may raise. */
module Wrappers {

  datatype Option<+T> = None | Some(value: T) {

    predicate IsFailure() {
      None?
    }

    function PropagateFailure<U>(): Option<U>
      requires None?
    {
      None
    }

    function Extract(): T
      requires Some?
    {
      value
    }

    /** `d.get(key, default)` once the lookup has been made. */
    function GetOr(default: T): T {
      match this
      case Some(v) => v
      case None => default
    }
  }

  datatype Result<+T, +E> = Ok(value: T) | Err(error: E) {

    predicate IsFailure() {
      Err?
    }

    function PropagateFailure<U>(): Result<U, E>
      requires Err?
    {
      Err(error)
    }

    function Extract(): T
      requires Ok?
    {
      value
    }
  }
}

=== FILE: youtube_api.dfy ===
/** The YouTube Data API v3 as the handlers see it. Every endpoint is a function from the
    keyword arguments of `list(**params)` to what `.execute()` produced; the model never calls
    anything, it takes the endpoints as inputs. Responses are taken as well-formed: fields
    the source reads with `[...]` are plain fields, fields it reads with `.get` are maps. */
module YouTubeApi {
  import opened Wrappers
  import opened Errors

  /** A keyword-argument value of a `list` request. */
  datatype Param = Str(text: string) | Number(number: int)

  type Params = map<string, Param>

  /** What `.execute()` produced: a response, an `HttpError`, or any other exception. */
  datatype Reply<T> = Response(body: T) | HttpError(detail: string) | Failure(detail: string)

  /** A list response; `items` is None when the response has no `items` key. */
  datatype ListResponse<T> = ListResponse(items: Option<seq<T>>) {
    /** `response.get('items', [])`. */
    function Items(): seq<T> {
      items.GetOr([])
    }
  }

  type Endpoint<T> = Params -> Reply<ListResponse<T>>

  /** The exception `.execute()` raised, as the handlers' `except` clauses see it. */
  function Execute<T>(reply: Reply<T>): (r: Result<T, Cause>)
    ensures reply.Response? ==> r == Ok(reply.body)
    ensures reply.HttpError? ==> r == Err(HttpFailure(reply.detail))
    ensures reply.Failure? ==> r == Err(OtherFailure(reply.detail))
  {
    match reply
    case Response(body) => Ok(body)
    case HttpError(d) => Err(HttpFailure(d))
    case Failure(d) => Err(OtherFailure(d))
  }

  /** One `search#result`: the kind-specific id (`id.videoId`, `id.playlistId` or
      `id.channelId`) and the snippet fields the handlers read. */
  datatype SearchResult = SearchResult(
    id: string,
    title: string,
    description: string,
    channelTitle: string,
    publishedAt: string,
    thumbnails: map<string, map<string, string>>)

  /** A `video` resource: `snippet.title` and the `statistics` counters, which arrive as strings. */
  datatype VideoResource = VideoResource(title: string, statistics: map<string, string>)

  /** A `channel` resource: `snippet.title` and the `statistics` counters. */
  datatype ChannelResource = ChannelResource(title: string, statistics: map<string, string>)

  /** A `playlist` resource: `snippet.title`. */
  datatype PlaylistResource = PlaylistResource(title: string)

  /** A `playlistItem` resource: `contentDetails.videoId`. */
  datatype PlaylistItemResource = PlaylistItemResource(videoId: string)
}
